=== FILE: README.md ===
# Cold store management — verified model of the business core

This project models, in Dafny, the logic that the cold store management
application (a Django web application) runs under its forms and views. It
covers six parts:

- **Stock ledger.** This covers both inventory apps (`inventory` and the
  older `coldstore/inventory`). Receiving stock adds to a product's quantity.
  Taking stock out subtracts, with a floor at zero. The on-hand weight of a
  boxed product is the full boxes behind the current one plus what is left
  of the current box.
- **Sale composer.** Saving a sale item takes its quantity out of the
  product's stock, floored at zero. It then recomputes the sale's total over
  all of the sale's items. The sale-item form refuses a quantity above the
  stock.
- **Ledger aggregation.** Bank account balances are opening plus credits
  minus debits. The account page adds:
  - a month summary over the inclusive window from the first to the last day
    of the month;
  - extra from / to / type filters that narrow the listed transactions;
  - the current balance.
  The vehicle page shows income, expense and net totals over an inclusive,
  optional date range. Adding and deleting transactions is modelled, and so
  is adding vehicles with unique plate numbers.
- **Amount validators.** These are the transaction-amount and
  opening-balance cleaners of the finance and vehicle forms.
- **Attendance state machine.** Clock-in is refused while a session is open.
  Clock-out closes the open session with the latest clock-in. The manager
  views and the self-service views share these rules. The set of active
  employees is modelled, and so is the invariant that nobody has two open
  sessions.
- **Role redirect.** This picks the landing page from the superuser flag and
  the user's groups.

Representation choices:

- Money and kilograms are `DecimalField`s with two decimal places. The model
  keeps them as integers counting hundredths, so `quantize(0.01)` is the
  identity.
- Each ORM `filter(...).aggregate(Sum(...)) or 0.00` is a sum over a
  filtered sequence of records (`Ledger.Filter`, `Ledger.SumBy`). An empty
  sum is 0.
- The ordering `["-date", "-id"]` is an insertion sort on the key
  (date, id) (`Ledger.SortNewestFirst`).
- Database tables are sequences or maps of immutable records. A view is a
  pure function from the stored records, plus its request parameters, to the
  new records or the page it shows.
- `get_object_or_404` becomes a `NotFound` failure in the views that take a
  record's id (`Finance.TxAdd`, `Finance.TxDelete`, `Assets.VehicleDetail`,
  `Assets.AddVehicleTransaction`, `Assets.TxDelete`, `Attendance.ClockIn`,
  `Attendance.ClockOut`). `Finance.AccountDetail` is given the account
  record itself.
- A form's `errors` is a map from each refused field's name to the reason
  (`Validators.FieldError`).
- The request method is a parameter (`Post` or any other).
- The current time is a parameter.

Files (one module per app, plus shared building blocks):

| file | modules |
|---|---|
| `wrappers.dfy` | `Wrappers`: `Option`, `Result` |
| `dates.dfy` | `Dates`: calendar dates, month lengths, the month window |
| `ledger.dfy` | `Ledger`: filtering, sums, newest-first ordering, lookup and removal by primary key |
| `inventory.dfy` | `Stock` (shared quantity arithmetic), `Inventory`, `ColdstoreInventory` |
| `sales.dfy` | `Sales`, `SaleForms` |
| `validators.dfy` | `Validators` |
| `finance.dfy` | `Finance` |
| `assets.dfy` | `Assets` |
| `attendance.dfy` | `Attendance` |
| `roles.dfy` | `Roles` |

Three facts about the code shape the records:

- **Amounts are constrained only by the forms.** The model fields of both
  ledgers default to 0.00 and accept any value; only the forms refuse an
  amount of zero or less. So `Finance.BankTransaction` and
  `Assets.VehicleTransaction` carry any integer amount, and
  `Finance.TxAddKeepsAmountsPositive` shows that the form path keeps amounts
  positive.
- **Stock-in quantity is unchecked.** `Stock.Receive` accepts any integer.
- **Only the sale-item form refuses over-stock items.** `SaleForms.CleanSaleItem`
  refuses a quantity above the stock; saving an item (`Sales.SaveItem`)
  clamps the stock at zero.

## Model

| member | source | states |
|---|---|---|
| Stock.Receive | inventory/models.py:90-93 | stock-in adds exactly the entry's quantity, with no upper bound |
| Stock.Withdraw | inventory/models.py:103-108 | stock-out never leaves a negative quantity: it subtracts when there is enough, and leaves exactly 0 when the request is at least the stock |
| Stock.ReceiveThenWithdraw | inventory/models.py:90-108 | receiving n then withdrawing n restores any non-negative quantity |
| Stock.WithdrawTwice | inventory/models.py:103-108 | two non-negative withdrawals equal one withdrawal of their sum, the floor included |
| Inventory.NewProduct | inventory/models.py:18-31 | a new product tracks by unit, is not weighted, and has quantity 0, no boxes, and alert threshold 5 |
| Inventory.AvailableWeightKg | inventory/models.py:36-60 | the weight is never negative; it is positive exactly when the product is weighted with boxes of positive weight (`track_method` plays no part); it is above the weight of all boxes but the current one; an unset or negative remainder counts as a full box; and it is at most boxes × box weight when the remainder is at most a box |
| Inventory.PartialBoxWeight | inventory/models.py:52-60 | with a positive remainder the weight is (boxes − 1) × box weight + remainder |
| Inventory.ThreeFreshBoxes | inventory/models.py:55-59 | three untouched 30.00 kg boxes hold 90.00 kg |
| Inventory.ExtraBoxAddsBoxWeight | inventory/models.py:59 | one more box in stock adds exactly one box weight |
| Inventory.WeightIgnoresTrackMethod | inventory/models.py:43-44 | changing `track_method` never changes the weight |
| Inventory.SaveStockEntry | inventory/models.py:90-93 | saving a stock entry raises the product's quantity by the entry's quantity and changes no other product field |
| Inventory.SaveStockOut | inventory/models.py:103-108 | saving a stock-out lowers the quantity by the requested amount, floored at 0, and changes no other product field |
| Inventory.StockInThenOutRestores | inventory/models.py:90-108 | a stock-in of n then a stock-out of n gives back the same product when its quantity was non-negative |
| Inventory.MovementsKeepWeight | inventory/models.py:90-108 | stock movements never change the boxed weight |
| ColdstoreInventory.SaveStockEntry | coldstore/inventory/models.py:49-52 | the older app's stock-in adds the entry quantity and keeps name, SKU, prices and alert threshold |
| ColdstoreInventory.SaveStockOut | coldstore/inventory/models.py:62-67 | the older app's stock-out subtracts with a floor at 0 and keeps name, SKU, prices and alert threshold |
| ColdstoreInventory.StockInThenOutRestores | coldstore/inventory/models.py:49-67 | in the older app, stock-in then stock-out of the same n restores a non-negative product |
| Sales.NewSale | sales/models.py:27-31 | a new sale has discount, subtotal, VAT and total all 0.00 |
| Sales.LineTotal | sales/models.py:46-49 | the line total is quantity × unit price, and 0 when either is missing |
| Sales.SaveItem | sales/models.py:51-61 | a storable item is appended. Its sale's total becomes the sum of line totals over all of that sale's items, the new one included, and no other field of that sale or of any other sale changes. The item's product loses the quantity, floored at 0, and no other product changes. A missing field, an unknown sale or an unknown product is refused |
| Sales.ResaveItem | sales/models.py:51-61 | saving an already stored item again, as the admin's change form does (sales/admin.py:11-16), replaces the row in place, takes the item's whole quantity out of the product's stock again (floored at 0), and recomputes the total of the item's sale over its items; every other sale, a sale the item was moved away from included, keeps its total, and no other product changes |
| Sales.ResaveWithdrawsAgain | sales/models.py:55-60 | saving an item and then saving it unchanged leaves the items and sale totals as after the first save but takes the quantity out of the stock twice |
| Sales.SaleTotalAppend | sales/models.py:59-60 | appending an item changes its own sale's total by its line total and no other sale's total |
| Sales.SaveItemRunningTotal | sales/models.py:59-61 | recomputing the total equals adding the new line to a consistent old total |
| Sales.SaveItemKeepsTotalsAgreeing | sales/models.py:51-61 | if every sale total agreed with its items before a save, every one agrees after it |
| Sales.SaveItemKeepsStockNonNegative | sales/models.py:55-57 | saving items never makes any stock negative |
| Sales.OrphanItemKeepsStock | sales/models.py:55 | an item whose product was deleted changes no stock |
| Sales.TwoItemSale | sales/models.py:46-61 | 2 @ 10.00 and 1 @ 5.00 saved into an empty sale give a total of 25.00 and take 2 and 1 from the two products |
| SaleForms.CleanSaleItem | sales/forms.py:35-43 | the form's `clean()` fails exactly when a product and a non-zero quantity are given and the quantity exceeds the stock; the error reports the stock; otherwise the data passes unchanged, and the form never changes the product |
| SaleForms.ValidatedItemNeverClamps | sales/forms.py:40-41 | a non-zero quantity that passed the form changes the stock by exactly that quantity when saved (a negative one raises it) |
| Validators.CleanAmount | finance/forms.py:24-28 | an amount is accepted exactly when it is present and greater than 0, and an accepted amount is unchanged; the vehicle-transaction form has the identical rule |
| Validators.CleanOpeningBalance | finance/forms.py:10-12 | a missing opening balance becomes 0.00; a present one, negative included, is kept |
| Validators.CleanOpeningBalanceField | finance/models.py:9 | the opening-balance field accepts exactly a present value, negative included, and keeps it; an empty one is refused as required, since the model field has a default but no `blank` |
| Validators.OpeningBalanceDefaultUnreachable | finance/forms.py:10-12 | whatever the field accepts passes through the cleaner unchanged, so the cleaner's 0.00 default never reaches a stored account through the form |
| Validators.CleanAmountIdempotent | finance/forms.py:28 | cleaning an accepted amount again accepts it unchanged |
| Validators.CleanOpeningBalanceIdempotent | finance/forms.py:10-12 | cleaning a cleaned opening balance changes nothing |
| Validators.CleanAmountField | finance/models.py:27 | the amount field accepts exactly a present amount above 0, unchanged; an empty one is refused as required (the model field has no `blank`), any other as not positive |
| Validators.AmountFieldAgreesWithCleaner | finance/forms.py:24-28 | the required check changes only the reason of a refusal, never whether the amount is accepted or its value |
| Validators.CleanText | finance/models.py:26 | a character field is accepted exactly when it is non-empty (unless blank is allowed), at most `max_length` characters long and free of null characters, and then unchanged; an empty required one is refused as required, a long one as too long, one holding a null character as invalid |
| Validators.CleanFreeText | finance/models.py:30 | a text field without a length limit that may be blank is refused exactly when it holds a null character (as invalid), and an accepted value is unchanged |
| Validators.FreeTextIsUnboundedText | assets/models.py:25 | a blank-allowed text field without a length limit behaves as a character field whose limit is its own length |
| Validators.CleanDate | finance/models.py:28 | a date field is accepted exactly when it holds a calendar date; an empty one is refused as required, any other as invalid |
| Validators.CleanTextAndDateIdempotent | finance/models.py:26-28 | cleaning an accepted text or date again accepts it unchanged |
| Validators.NoteField | finance/forms.py:17-28 | a refused field enters the form's errors with its reason; an accepted one leaves them as they were |
| Dates.DaysInMonth | finance/views.py:93 | a month has 28 to 31 days: 29 exactly for February of a leap year, 28 for February otherwise, and 30 for April, June, September and November |
| Dates.MonthWindow | finance/views.py:91-95 | the window of (y, m) exists exactly for a month 1..12 in a year 1..9999, and runs from day 1 to the month's last day, both valid dates |
| Dates.MonthWindowIsMonth | finance/views.py:104 | a valid date is in the inclusive window exactly when it falls in that year and month |
| Dates.LeapDayInWindow | finance/views.py:93-95 | February 29 is in February's window exactly in leap years |
| Ledger.SortNewestFirst | finance/models.py:34-35 | the listing is ordered by date descending and then id descending, and is a permutation of its input |
| Ledger.SortKeepsMembers | finance/views.py:120 | ordering neither adds nor drops a transaction |
| Ledger.IndexOf | finance/views.py:186 | a lookup by primary key finds a record with that key, and finds nothing exactly when no record has it |
| Ledger.RemoveAt | finance/views.py:190 | deleting a record removes exactly that one record and keeps the order of the rest |
| Finance.NewAccount | finance/models.py:5-11 | a new account has opening balance 0.00 and is active |
| Finance.NetIsSignedSum | finance/views.py:24-28 | credits minus debits equals the sum of signed amounts, so every transaction is counted exactly once |
| Finance.BalanceIsSignedSum | finance/views.py:24-28 | a balance is the opening balance plus the signed amounts |
| Finance.TotalsOrderIndependent | finance/views.py:24-25 | credit and debit totals depend only on which transactions exist, not on their order |
| Finance.BalanceOrderIndependent | finance/views.py:132-135 | a balance is independent of transaction order |
| Finance.RowFor | finance/views.py:23-36 | an account's list line shows the credit total and the debit total of its own transactions, and balance = opening + credits − debits |
| Finance.RowBalanceIsSignedSum | finance/views.py:23-36 | the list line's balance is equally the opening balance plus the sum of the account's signed amounts |
| Finance.TotalBalanceAppend | finance/views.py:21-29 | the grand total of a longer account list grows by the added account's balance |
| Finance.AccountList | finance/views.py:17-41 | the list has one line per account in the given order, and the total balance is the sum of all their balances |
| Finance.TypeFilter | finance/views.py:111-112 | only "credit" and "debit" select a type |
| Finance.ApplyFilters | finance/views.py:106-112 | a transaction survives the extra filters exactly when it is on or after `from`, on or before `to`, and of the selected type, each test applying only when given; a survivor is kept as often as it occurs |
| Finance.ApplyFiltersShrinks | finance/views.py:106-112 | the extra filters only drop transactions |
| Finance.AccountDetail | finance/views.py:87-139 | for a valid month, the page lists exactly the account's transactions of that month that pass the filters, each as often as it is stored, newest first. The listed totals are over that list. The month totals and net cover the whole month, ignoring the filters. The current balance covers all of the account's transactions. An illegal month or year is an error |
| Finance.ListedContents | finance/views.py:104-120 | the listed transactions are those of the account, in the month, that pass the filters, each as often as it is stored |
| Finance.WindowIsMonth | finance/views.py:93-104 | the inclusive first-to-last-day window selects exactly the transactions dated in the month, with the same totals |
| Finance.FilteredTotalsWithinMonth | finance/views.py:137-139 | with non-negative amounts, the filtered credit and debit totals never exceed the month's |
| Finance.SubListTotals | finance/views.py:137-139 | with non-negative amounts, a sub-collection of transactions has no larger credit or debit total |
| Finance.UnknownTypeIgnored | finance/views.py:111-112 | an unrecognised type parameter gives the same page as none |
| Finance.FormErrors | finance/models.py:26-30 | the bank-transaction form refuses exactly an empty or invalid date, an empty title, one over 160 characters or one holding a null character, a missing or non-positive amount, a reference over 80 characters or holding a null character, and notes holding a null character, naming each refused field |
| Finance.TxAdd | finance/views.py:162-180 | an unknown account is not found. A non-POST request changes nothing. A POST stores one new transaction on that account, with the form's values, exactly when the form has no errors; otherwise it is refused and nothing is stored (the view redirects with a generic message and does not show which fields failed) |
| Finance.TxAddKeepsAmountsPositive | finance/forms.py:24-28 | transactions stored through the form keep every amount positive |
| Finance.TxAddUpdatesBalance | finance/views.py:171-175 | a stored transaction moves its own account's balance by its signed amount and leaves every other balance unchanged |
| Finance.TxDelete | finance/views.py:185-193 | an unknown id is not found; only a POST removes the transaction with that id; other requests change nothing |
| Finance.DeleteUpdatesBalances | finance/views.py:189-190 | after a delete, the owning account's balance loses exactly the transaction's signed amount and every other balance is unchanged |
| Finance.TxAddKeepsIdsUnique | finance/views.py:171-175 | an add under a primary key no stored transaction has keeps the keys unique |
| Finance.DeleteRemovesId | finance/views.py:189-190 | with unique ids, no transaction with the deleted id remains |
| Assets.TotalsOrderIndependent | assets/views.py:50-51 | income and expense totals do not depend on transaction order |
| Assets.SubListTotals | assets/views.py:45-51 | with non-negative amounts, a sub-collection has no larger income or expense total |
| Assets.DateFiltered | assets/views.py:45-48 | a transaction passes the date filters exactly when it is on or after `from` and on or before `to`, each applying only when given, and is kept as often as it occurs |
| Assets.DateFilteredShrinks | assets/views.py:45-48 | the date filters only drop transactions |
| Assets.VehicleDetail | assets/views.py:37-52 | an unknown vehicle is not found; otherwise the page lists exactly the vehicle's transactions within the inclusive date bounds, each as often as it is stored, newest first, with income and expense totals over that list and net = income − expense |
| Assets.AllDatesTotals | assets/views.py:39-51 | without date bounds the page's totals cover every transaction of the vehicle |
| Assets.DateBoundsLowerTotals | assets/views.py:45-51 | with non-negative amounts, date bounds never raise the income or expense total |
| Assets.FormErrors | assets/models.py:22-25 | the vehicle-transaction form refuses exactly an empty title, one over 120 characters or one holding a null character, a missing or non-positive amount, an empty or invalid date, and notes holding a null character, naming each refused field |
| Assets.AddVehicleTransaction | assets/views.py:74-108 | an unknown vehicle is not found. A non-POST request changes nothing. A POST whose form has no errors appends one transaction on that vehicle with the form's values. Any other POST re-renders the vehicle page without date bounds, with totals over all of the vehicle's transactions and with the form's errors |
| Assets.AddUpdatesTotals | assets/views.py:80-86 | a stored transaction adds its amount to its own vehicle's income or expense total (whichever matches its type) and leaves every other total unchanged |
| Assets.TxDelete | assets/views.py:113-120 | an unknown id is not found; only a POST removes the transaction; other requests change nothing |
| Assets.DeleteUpdatesTotals | assets/views.py:117-118 | after a delete, the owning vehicle's income or expense total (whichever matches the transaction's type) loses its amount and every other total is unchanged |
| Assets.VehicleFormErrors | assets/models.py:7-9 | the vehicle form refuses exactly an empty name, one over 100 characters or one holding a null character, an empty plate number, one over 30 characters, one holding a null character or one already in use, and a description holding a null character; a plate number is reported as taken exactly when it passed its own checks and is in use |
| Assets.AddVehicle | assets/views.py:15-24 | a non-POST request changes nothing; a POST is refused with the form's errors exactly when the name or plate number is refused, the plate is in use or the description holds a null character; otherwise the vehicle is appended |
| Assets.AddVehicleKeepsPlatesUnique | assets/models.py:8 | plate numbers stay unique across vehicles |
| Attendance.LatestOpen | employees/views.py:113 | the chosen session is an open session of the employee with the latest clock-in, and there is none exactly when the employee has no open session |
| Attendance.StartSession | employees/views.py:99-103 | clock-in is refused exactly when an open session exists; otherwise exactly one open log stamped now is appended |
| Attendance.EndSession | employees/views.py:113-119 | clock-out is refused exactly when no open session exists; otherwise the latest open session gets its clock-out and no other log changes |
| Attendance.ClockIn | employees/views.py:95-105 | an unknown employee is not found, an employee already clocked in is refused, and anyone else gets one new open log |
| Attendance.ClockOut | employees/views.py:110-122 | an unknown employee is not found and an employee with no open session is refused; otherwise only the open session with the latest clock-in is closed, at now |
| Attendance.MyClockIn | employees/views.py:156-168 | without a linked profile nothing happens; otherwise the clock-in rules apply to the caller's own profile |
| Attendance.MyClockOut | employees/views.py:171-187 | without a linked profile nothing happens; otherwise the clock-out rules apply to the caller's own profile |
| Attendance.SelfServiceSameRules | employees/views.py:156-187 | the self-service clock-in and clock-out give the same result as the manager's for the same employee |
| Attendance.ActiveIds | employees/views.py:81-82 | an employee is active exactly when they have an open log |
| Attendance.StartSessionKeepsInvariant | employees/views.py:99-103 | clock-in keeps at most one open session per employee |
| Attendance.EndSessionKeepsInvariant | employees/views.py:113-119 | clock-out keeps at most one open session per employee |
| Attendance.ClockInKeepsInvariant | employees/views.py:95-105 | the manager's clock-in keeps at most one open session per employee |
| Attendance.ClockOutKeepsInvariant | employees/views.py:110-122 | the manager's clock-out keeps at most one open session per employee |
| Attendance.ClockInActivates | employees/views.py:95-105 | after a clock-in the active set is the old one plus the employee |
| Attendance.ClockOutDeactivates | employees/views.py:110-122 | when nobody has two open sessions, a clock-out removes exactly that employee from the active set |
| Attendance.DoubleClockInRefused | employees/views.py:99-101 | a second clock-in with no clock-out in between is refused |
| Roles.RedirectByRole | users/views.py:15-28 | the landing page is always the reports summary or the inventory dashboard, and it is the reports summary exactly for superusers and accountants |
| Roles.SuperuserPrecedence | users/views.py:22-23 | a superuser lands on the reports summary whatever their groups |
| Roles.StaffIrrelevant | users/views.py:26-28 | membership of Staff never changes the landing page |
| Roles.AdminGroupAloneLandsOnInventory | users/views.py:15-28 | a non-superuser whose only group is Admin lands on the inventory dashboard: the function's docstring routes Admin to reports, but the code reads only the superuser flag |

## Left out

- HTTP handling is not modelled. This covers login and `has_any_group` gating, rendering, flash messages, redirect targets, and the status code of a re-rendered page. Only the state changes and the computed page values are modelled.
- Finance.AccountDetail: models the page with an empty search box `q`. The case-insensitive `icontains` search (finance/views.py:113-118) depends on Unicode case folding.
- Query-string parsing is not modelled. This covers `int(y)`, `int(m)`, the `from` / `to` date strings, and the default of today's month. The month and the date bounds are parameters, already parsed; a parse error is outside the model.
- Python's `Decimal` and the `max_digits` bounds are not modelled. Amounts and weights are unbounded integers of hundredths, and the two-decimal rounding of `quantize` is the identity on them.
- `created_by`, `created_at`, `timestamp`, images and categories are not modelled: no operation reads them.
- Finance.AccountDetail: is given the account record, so the 404 for an unknown account id (finance/views.py:89) is not modelled here; the same lookup is modelled in `Finance.TxAdd`.
- Form fields are taken after Django's stripping of surrounding whitespace: the model does not strip, so a title of only spaces arrives as the empty string. A choice field always holds one of its choices (`TxType`), and a date that does not parse is `Some` of a non-calendar date or `None` when left empty.
- Finance.AccountList: takes the accounts in the order given. The `order_by("-is_active", "name")` ordering is a matter of display.
- The vehicle list, the employee list, the account and employee create / edit / delete views, and the attendance list pages are not modelled. Their logic is ordering, search, the 50-log display cap or a framework form save; the opening-balance field those account forms run is `Validators.CleanOpeningBalanceField`. The clock-in and clock-out views are modelled in `Attendance`.
- `ProductWeightPrice` is not modelled: it is pure data.
- The triple-quoted block and the commented-out code in the models are not modelled: they are not live code.
- Box rollover and weight decrement are not modelled: no code changes `boxes_in_stock` or `box_remaining_kg`.
- Concurrency is not modelled. Simultaneous stock changes can lose updates; every operation here is one sequential step.
- Attendance.LatestOpen: when two open sessions of one employee share the latest clock-in, the source's pick depends on the database; the model takes the later-stored one. While at most one session is open this cannot arise.
- Attendance.ClockOut: the clock-out time is not checked against the clock-in time, as in the source. Times are plain integers supplied by the caller in place of `timezone.now()`.
- SaleForms.ValidatedItemNeverClamps: stated for non-zero quantities only. A zero quantity skips the form's check, so it says nothing about a stock that is already negative.
- SaleForms.CleanSaleItem: models only the form's `clean()`. The field checks that run before it are not modelled: product, quantity and unit price are required (sales/models.py:42-44), so a form missing one of them fails even though `clean()` lets it through.
- The management commands, template tags, URL configuration, the admin's list and search settings, and the Meta-only forms are not modelled: they are outside the core.

=== FILE: assets.dfy ===
/** The vehicle ledger: vehicles with unique plate numbers, dated income
    and expense transactions, and the income / expense / net totals of the
    vehicle page. Vehicles have no opening balance. Amounts are integer
    hundredths. */
module Assets {
  import opened Wrappers
  import opened Dates
  import Ledger
  import Validators

  datatype TxType = Income | Expense

  datatype Vehicle = Vehicle(id: nat, name: string, plateNumber: string, description: string)

  /** A transaction belongs to exactly one vehicle, named by `vehicle`.
      Its creator and creation time are not modelled. */
  datatype VehicleTransaction = VehicleTransaction(
    id: nat,
    vehicle: nat,
    txType: TxType,
    title: string,
    amount: int,       // defaults to 0.00; positivity is the form's job
    date: Date,
    notes: string)

  function Id(t: VehicleTransaction): nat { t.id }

  /** The key of `ordering = ["-date", "-id"]`. */
  function StampOf(t: VehicleTransaction): Ledger.Stamp { Ledger.Stamp(t.date, t.id) }

  predicate AmountsNonNegative(txs: seq<VehicleTransaction>) {
    forall t :: t in txs ==> t.amount >= 0
  }

  function OfVehicle(id: nat): VehicleTransaction -> bool {
    (t: VehicleTransaction) => t.vehicle == id
  }

  /** `vehicle.transactions`. */
  function Transactions(txs: seq<VehicleTransaction>, id: nat): seq<VehicleTransaction> {
    Ledger.Filter(txs, OfVehicle(id))
  }

  /** What a transaction adds to the income total: its amount when it is
      income, 0 otherwise. */
  function IncomePart(t: VehicleTransaction): int {
    if t.txType == Income then t.amount else 0
  }

  function ExpensePart(t: VehicleTransaction): int {
    if t.txType == Expense then t.amount else 0
  }

  /** Sum of the income amounts, 0.00 when there are none. */
  function IncomeTotal(txs: seq<VehicleTransaction>): int {
    Ledger.SumBy(txs, IncomePart)
  }

  /** Sum of the expense amounts, 0.00 when there are none. */
  function ExpenseTotal(txs: seq<VehicleTransaction>): int {
    Ledger.SumBy(txs, ExpensePart)
  }

  /** Income and expense totals depend only on which transactions there
      are, not on their order. */
  lemma TotalsOrderIndependent(a: seq<VehicleTransaction>, b: seq<VehicleTransaction>)
    requires multiset(a) == multiset(b)
    ensures IncomeTotal(a) == IncomeTotal(b) && ExpenseTotal(a) == ExpenseTotal(b)
  {
    Ledger.SumByPermutation(a, b, IncomePart);
    Ledger.SumByPermutation(a, b, ExpensePart);
  }

  /** A sub-multiset of non-negative transactions has no larger totals. */
  lemma SubListTotals(a: seq<VehicleTransaction>, b: seq<VehicleTransaction>)
    requires multiset(a) <= multiset(b)
    requires AmountsNonNegative(b)
    ensures IncomeTotal(a) <= IncomeTotal(b) && ExpenseTotal(a) <= ExpenseTotal(b)
  {
    assert Ledger.NonNegativeOn(b, IncomePart) && Ledger.NonNegativeOn(b, ExpensePart) by {
      forall i | 0 <= i < |b| ensures IncomePart(b[i]) >= 0 && ExpensePart(b[i]) >= 0 {
        assert b[i] in b;
      }
    }
    Ledger.SumBySubMultiset(a, b, IncomePart);
    Ledger.SumBySubMultiset(a, b, ExpensePart);
  }

  // ---------------------------------------------------------------------------
  // The vehicle page

  /** What the vehicle page shows. */
  datatype Page = Page(
    transactions: seq<VehicleTransaction>,
    totalIncome: int,
    totalExpense: int,
    netTotal: int)

  /** The inclusive from / to test, each bound applying only when given. */
  predicate InDates(t: VehicleTransaction, from: Option<Date>, to: Option<Date>) {
    && (from.Some? ==> OnOrBefore(from.value, t.date))
    && (to.Some? ==> OnOrBefore(t.date, to.value))
  }

  function DatedFrom(d: Date): VehicleTransaction -> bool {
    (t: VehicleTransaction) => OnOrBefore(d, t.date)
  }

  function DatedTo(d: Date): VehicleTransaction -> bool {
    (t: VehicleTransaction) => OnOrBefore(t.date, d)
  }

  /** The vehicle's transactions narrowed by the optional date bounds. */
  function DateFiltered(s: seq<VehicleTransaction>, from: Option<Date>, to: Option<Date>)
    : (r: seq<VehicleTransaction>)
    ensures forall t :: t in r <==> t in s && InDates(t, from, to)
    // each transaction within the bounds is kept as often as it occurs
    ensures forall t :: multiset(r)[t] == if InDates(t, from, to) then multiset(s)[t] else 0
  {
    var s1 := if from.Some? then Ledger.FilterCount(s, DatedFrom(from.value));
                                Ledger.Filter(s, DatedFrom(from.value))
              else s;
    if to.Some? then Ledger.FilterCount(s1, DatedTo(to.value)); Ledger.Filter(s1, DatedTo(to.value))
    else s1
  }

  lemma DateFilteredShrinks(s: seq<VehicleTransaction>, from: Option<Date>, to: Option<Date>)
    ensures multiset(DateFiltered(s, from, to)) <= multiset(s)
  {
    var s1 := if from.Some? then Ledger.Filter(s, DatedFrom(from.value)) else s;
    if from.Some? { Ledger.FilterIsSubMultiset(s, DatedFrom(from.value)); }
    if to.Some? { Ledger.FilterIsSubMultiset(s1, DatedTo(to.value)); }
  }

  datatype ViewError = NotFound

  /** The page of vehicle `vehicleId` for optional date bounds `from` and
      `to`, or `NotFound` when no vehicle has that id. */
  function VehicleDetail(vehicleIds: set<nat>, vehicleId: nat, txs: seq<VehicleTransaction>,
                         from: Option<Date>, to: Option<Date>)
    : (r: Result<Page, ViewError>)
    ensures r.Failure? <==> vehicleId !in vehicleIds
    ensures r.Failure? ==> r.error == NotFound
    ensures r.Success? ==> Ledger.NewestFirst(r.value.transactions, StampOf)
    ensures r.Success? ==> forall t :: t in r.value.transactions <==>
      t in txs && t.vehicle == vehicleId && InDates(t, from, to)
    // each such transaction is listed exactly as often as it is stored
    ensures r.Success? ==>
      forall t :: multiset(r.value.transactions)[t] ==
        if t.vehicle == vehicleId && InDates(t, from, to) then multiset(txs)[t] else 0
    ensures r.Success? ==> r.value.totalIncome == IncomeTotal(r.value.transactions)
    ensures r.Success? ==> r.value.totalExpense == ExpenseTotal(r.value.transactions)
    ensures r.Success? ==> r.value.netTotal == r.value.totalIncome - r.value.totalExpense
  {
    if vehicleId !in vehicleIds then Failure(NotFound)
    else
      var own := Transactions(txs, vehicleId);
      var shown := DateFiltered(own, from, to);
      var listed := Ledger.SortNewestFirst(shown, StampOf);
      TotalsOrderIndependent(listed, shown);
      Ledger.SortKeepsMembers(shown, StampOf);
      Ledger.FilterCount(txs, OfVehicle(vehicleId));
      Success(Page(listed, IncomeTotal(shown), ExpenseTotal(shown), IncomeTotal(shown) - ExpenseTotal(shown)))
  }

  /** Without date bounds the page totals every transaction of the vehicle. */
  lemma AllDatesTotals(vehicleIds: set<nat>, vehicleId: nat, txs: seq<VehicleTransaction>)
    requires vehicleId in vehicleIds
    ensures VehicleDetail(vehicleIds, vehicleId, txs, None, None).value.totalIncome
         == IncomeTotal(Transactions(txs, vehicleId))
    ensures VehicleDetail(vehicleIds, vehicleId, txs, None, None).value.totalExpense
         == ExpenseTotal(Transactions(txs, vehicleId))
  {
    var own := Transactions(txs, vehicleId);
    assert DateFiltered(own, None, None) == own;
  }

  /** With non-negative amounts, date bounds can only lower the totals. */
  lemma DateBoundsLowerTotals(vehicleIds: set<nat>, vehicleId: nat, txs: seq<VehicleTransaction>,
                              from: Option<Date>, to: Option<Date>)
    requires vehicleId in vehicleIds
    requires AmountsNonNegative(txs)
    ensures VehicleDetail(vehicleIds, vehicleId, txs, from, to).value.totalIncome
         <= VehicleDetail(vehicleIds, vehicleId, txs, None, None).value.totalIncome
    ensures VehicleDetail(vehicleIds, vehicleId, txs, from, to).value.totalExpense
         <= VehicleDetail(vehicleIds, vehicleId, txs, None, None).value.totalExpense
  {
    var own := Transactions(txs, vehicleId);
    DateFilteredShrinks(own, from, to);
    assert DateFiltered(own, None, None) == own;
    assert AmountsNonNegative(own);
    SubListTotals(DateFiltered(own, from, to), own);
  }

  // ---------------------------------------------------------------------------
  // Adding and deleting transactions, adding vehicles

  /** The vehicle-transaction form's fields. `date` is `None` when left
      empty; the type is one of the two choices. */
  datatype TxForm = TxForm(txType: TxType, title: string, amount: Option<int>, date: Option<Date>, notes: string)

  /** The form's errors: a required title of at most 120 characters, a
      positive amount, a required date and notes of any length; neither text
      may hold a null character. */
  function FormErrors(form: TxForm): (errs: map<string, Validators.FieldError>)
    ensures errs.Keys <= {"title", "amount", "date", "notes"}
    ensures "title" in errs <==> |form.title| == 0 || |form.title| > 120 || '\0' in form.title
    ensures "amount" in errs <==> form.amount.None? || form.amount.value <= 0
    ensures "date" in errs <==> form.date.None? || !ValidDate(form.date.value)
    ensures "notes" in errs <==> '\0' in form.notes
  {
    var e1 := Validators.NoteField(map[], "title", Validators.CleanText(form.title, false, 120));
    var e2 := Validators.NoteField(e1, "amount", Validators.CleanAmountField(form.amount));
    var e3 := Validators.NoteField(e2, "date", Validators.CleanDate(form.date));
    Validators.NoteField(e3, "notes", Validators.CleanFreeText(form.notes))
  }

  /** A form with no errors. */
  predicate FormValid(form: TxForm) {
    && 0 < |form.title| <= 120 && '\0' !in form.title
    && form.amount.Some? && form.amount.value > 0
    && form.date.Some? && ValidDate(form.date.value)
    && '\0' !in form.notes
  }

  /** The record a valid form stores on vehicle `vehicleId`. */
  function Record(form: TxForm, vehicleId: nat, newId: nat): VehicleTransaction
    requires FormValid(form)
  {
    VehicleTransaction(newId, vehicleId, form.txType, form.title, form.amount.value, form.date.value, form.notes)
  }

  /** What a submission leads to: a redirect to the vehicle page (the
      transactions as they now are), or the page re-rendered with the form's
      errors. */
  datatype Outcome =
    | Redirected(txs: seq<VehicleTransaction>)
    | Rerendered(page: Page, errors: map<string, Validators.FieldError>)

  /** Recording a transaction on an existing vehicle. A non-POST request
      changes nothing. A valid form appends the record under the fresh key
      `newId`. A form with errors re-renders the page, with the totals over
      all of the vehicle's transactions and no date bounds. */
  function AddVehicleTransaction(vehicleIds: set<nat>, txs: seq<VehicleTransaction>, vehicleId: nat,
                                 verb: Ledger.RequestMethod, form: TxForm, newId: nat)
    : (r: Result<Outcome, ViewError>)
    ensures vehicleId !in vehicleIds ==> r == Failure(NotFound)
    ensures vehicleId in vehicleIds && verb != Ledger.Post ==> r == Success(Redirected(txs))
    ensures r.Success? && r.value.Rerendered? <==>
      vehicleId in vehicleIds && verb == Ledger.Post && !FormValid(form)
    ensures r.Success? && r.value.Rerendered? ==>
      && Success(r.value.page) == VehicleDetail(vehicleIds, vehicleId, txs, None, None)
      && r.value.page.totalIncome == IncomeTotal(Transactions(txs, vehicleId))
      && r.value.page.totalExpense == ExpenseTotal(Transactions(txs, vehicleId))
      && r.value.errors == FormErrors(form)
    ensures r.Success? && r.value.Redirected? && verb == Ledger.Post ==>
      FormValid(form) && r.value.txs == txs + [Record(form, vehicleId, newId)]
  {
    if vehicleId !in vehicleIds then Failure(NotFound)
    else if verb != Ledger.Post then Success(Redirected(txs))
    else
      var errs := FormErrors(form);
      if errs == map[] then
        assert "title" !in errs && "amount" !in errs && "date" !in errs && "notes" !in errs;
        Success(Redirected(txs + [Record(form, vehicleId, newId)]))
      else
        var page := VehicleDetail(vehicleIds, vehicleId, txs, None, None).value;
        AllDatesTotals(vehicleIds, vehicleId, txs);
        Success(Rerendered(page, errs))
  }

  /** A recorded transaction raises its own vehicle's total on its side by
      its amount and leaves every other total alone. */
  lemma AddUpdatesTotals(vehicleIds: set<nat>, txs: seq<VehicleTransaction>, vehicleId: nat,
                         form: TxForm, newId: nat, v: nat)
    requires AddVehicleTransaction(vehicleIds, txs, vehicleId, Ledger.Post, form, newId).Success?
    requires AddVehicleTransaction(vehicleIds, txs, vehicleId, Ledger.Post, form, newId).value.Redirected?
    ensures
      var t := Record(form, vehicleId, newId);
      var after := Transactions(AddVehicleTransaction(vehicleIds, txs, vehicleId, Ledger.Post, form, newId).value.txs, v);
      var counted := vehicleId == v;
      && IncomeTotal(after) == IncomeTotal(Transactions(txs, v)) + (if counted then IncomePart(t) else 0)
      && ExpenseTotal(after) == ExpenseTotal(Transactions(txs, v)) + (if counted then ExpensePart(t) else 0)
  {
    var t := Record(form, vehicleId, newId);
    Ledger.FilterSumAppendOne(txs, t, OfVehicle(v), IncomePart);
    Ledger.FilterSumAppendOne(txs, t, OfVehicle(v), ExpensePart);
  }

  /** Deleting a transaction: an unknown id is not found, a non-POST
      request changes nothing, a POST removes the record. */
  function TxDelete(txs: seq<VehicleTransaction>, txId: nat, verb: Ledger.RequestMethod)
    : (r: Result<seq<VehicleTransaction>, ViewError>)
    ensures r.Failure? <==> forall t :: t in txs ==> t.id != txId
    ensures r.Success? && verb != Ledger.Post ==> r.value == txs
    ensures r.Success? && verb == Ledger.Post ==>
      var i := Ledger.IndexOf(txs, Id, txId).value;
      txs[i].id == txId && r.value == Ledger.RemoveAt(txs, i)
  {
    match Ledger.IndexOf(txs, Id, txId)
    case None => Failure(NotFound)
    case Some(i) => if verb == Ledger.Post then Success(Ledger.RemoveAt(txs, i)) else Success(txs)
  }

  /** After a POST delete the transaction no longer counts: the totals of
      its vehicle drop by its amount on its side, nothing else changes. */
  lemma DeleteUpdatesTotals(txs: seq<VehicleTransaction>, txId: nat, vehicleId: nat)
    requires TxDelete(txs, txId, Ledger.Post).Success?
    ensures
      var t := txs[Ledger.IndexOf(txs, Id, txId).value];
      var after := Transactions(TxDelete(txs, txId, Ledger.Post).value, vehicleId);
      var before := Transactions(txs, vehicleId);
      var counted := t.vehicle == vehicleId;
      && IncomeTotal(after) == IncomeTotal(before) - (if counted then IncomePart(t) else 0)
      && ExpenseTotal(after) == ExpenseTotal(before) - (if counted then ExpensePart(t) else 0)
  {
    var i := Ledger.IndexOf(txs, Id, txId).value;
    assert TxDelete(txs, txId, Ledger.Post).value == Ledger.RemoveAt(txs, i);
    Ledger.FilterSumRemoveAt(txs, i, OfVehicle(vehicleId), IncomePart);
    Ledger.FilterSumRemoveAt(txs, i, OfVehicle(vehicleId), ExpensePart);
  }

  /** Plate numbers are unique across vehicles. */
  predicate PlatesUnique(vehicles: seq<Vehicle>) {
    forall i, j :: 0 <= i < j < |vehicles| ==> vehicles[i].plateNumber != vehicles[j].plateNumber
  }

  datatype VehicleForm = VehicleForm(name: string, plateNumber: string, description: string)

  /** Some vehicle already has plate number `plate`. */
  predicate PlateInUse(vehicles: seq<Vehicle>, plate: string) {
    exists i :: 0 <= i < |vehicles| && vehicles[i].plateNumber == plate
  }

  /** The vehicle form's errors: a required name of at most 100 characters
      and a required plate number of at most 30 that no vehicle uses yet,
      and a description of any length, none of them holding a null
      character. Uniqueness is checked only for a plate number that passed
      its own field checks. */
  function VehicleFormErrors(vehicles: seq<Vehicle>, form: VehicleForm)
    : (errs: map<string, Validators.FieldError>)
    ensures errs.Keys <= {"name", "plate_number", "description"}
    ensures "name" in errs <==> |form.name| == 0 || |form.name| > 100 || '\0' in form.name
    ensures "plate_number" in errs <==>
      |form.plateNumber| == 0 || |form.plateNumber| > 30 || '\0' in form.plateNumber
      || PlateInUse(vehicles, form.plateNumber)
    ensures "plate_number" in errs && errs["plate_number"] == Validators.Taken <==>
      0 < |form.plateNumber| <= 30 && '\0' !in form.plateNumber && PlateInUse(vehicles, form.plateNumber)
    ensures "description" in errs <==> '\0' in form.description
  {
    var e1 := Validators.NoteField(map[], "name", Validators.CleanText(form.name, false, 100));
    var plate := Validators.CleanText(form.plateNumber, false, 30);
    var unique: Result<string, Validators.FieldError> :=
      if plate.Success? && PlateInUse(vehicles, form.plateNumber) then Failure(Validators.Taken) else plate;
    var e2 := Validators.NoteField(e1, "plate_number", unique);
    Validators.NoteField(e2, "description", Validators.CleanFreeText(form.description))
  }

  /** Adding a vehicle: a non-POST request changes nothing; a form with
      errors is refused with them; otherwise the vehicle is appended. */
  function AddVehicle(vehicles: seq<Vehicle>, verb: Ledger.RequestMethod, form: VehicleForm, newId: nat)
    : (r: Result<seq<Vehicle>, map<string, Validators.FieldError>>)
    ensures verb != Ledger.Post ==> r == Success(vehicles)
    ensures verb == Ledger.Post ==>
      (r.Failure? <==> |form.name| == 0 || |form.name| > 100 || '\0' in form.name
                       || |form.plateNumber| == 0 || |form.plateNumber| > 30 || '\0' in form.plateNumber
                       || PlateInUse(vehicles, form.plateNumber) || '\0' in form.description)
    ensures r.Failure? ==> r.error == VehicleFormErrors(vehicles, form)
    ensures r.Success? && verb == Ledger.Post ==>
      r.value == vehicles + [Vehicle(newId, form.name, form.plateNumber, form.description)]
  {
    if verb != Ledger.Post then Success(vehicles)
    else
      var errs := VehicleFormErrors(vehicles, form);
      if errs != map[] then Failure(errs)
      else
        assert "name" !in errs && "plate_number" !in errs && "description" !in errs;
        Success(vehicles + [Vehicle(newId, form.name, form.plateNumber, form.description)])
  }

  lemma AddVehicleKeepsPlatesUnique(vehicles: seq<Vehicle>, verb: Ledger.RequestMethod, form: VehicleForm, newId: nat)
    requires PlatesUnique(vehicles)
    requires AddVehicle(vehicles, verb, form, newId).Success?
    ensures PlatesUnique(AddVehicle(vehicles, verb, form, newId).value)
  {
  }
}

=== FILE: attendance.dfy ===
/** Employee attendance: a log is a session opened by a clock-in and closed
    by a clock-out. Every operation keeps at most one open session per
    employee. Times are instants supplied by the caller (the server clock
    is a parameter, not modelled). */
module Attendance {
  import opened Wrappers

  /** An attendance log; `clockOut` is `None` while the session is open. */
  datatype AttendanceLog = AttendanceLog(id: nat, employee: nat, clockIn: int, clockOut: Option<int>)

  datatype AttendanceError = EmployeeNotFound | AlreadyClockedIn | NoOpenSession | NoProfile

  /** Log `i` is an open session of employee `e`. */
  predicate OpenOf(logs: seq<AttendanceLog>, i: int, e: nat) {
    0 <= i < |logs| && logs[i].employee == e && logs[i].clockOut.None?
  }

  /** `AttendanceLog.objects.filter(employee=e, clock_out__isnull=True).exists()` */
  predicate HasOpen(logs: seq<AttendanceLog>, e: nat) {
    exists i :: 0 <= i < |logs| && OpenOf(logs, i, e)
  }

  /** The invariant: no employee has two open sessions. */
  predicate AtMostOneOpen(logs: seq<AttendanceLog>) {
    forall i, j ::
      (0 <= i < |logs| && 0 <= j < |logs| && OpenOf(logs, i, logs[i].employee)
       && OpenOf(logs, j, logs[i].employee)) ==> i == j
  }

  /** The open session of `e` with the latest clock-in, the first of
      `order_by("-clock_in")`. Among open sessions clocked in at the same
      instant the later-stored one is taken. */
  function LatestOpen(logs: seq<AttendanceLog>, e: nat): (r: Option<nat>)
    ensures r.None? <==> !HasOpen(logs, e)
    ensures r.Some? ==> OpenOf(logs, r.value, e)
    ensures r.Some? ==> forall j :: OpenOf(logs, j, e) ==> logs[j].clockIn <= logs[r.value].clockIn
    decreases |logs|
  {
    if |logs| == 0 then None
    else
      var n := |logs| - 1;
      var front := logs[..n];
      var earlier := LatestOpen(front, e);
      assert forall j :: OpenOf(logs, j, e) && j < n ==> OpenOf(front, j, e);
      assert forall j :: OpenOf(front, j, e) ==> OpenOf(logs, j, e);
      if logs[n].employee == e && logs[n].clockOut.None?
         && (earlier.None? || logs[earlier.value].clockIn <= logs[n].clockIn)
      then assert OpenOf(logs, n, e); Some(n)
      else earlier
  }

  /** Opening a session for `e`: refused while one is open, otherwise one
      new open log stamped `now` is appended. */
  function StartSession(logs: seq<AttendanceLog>, e: nat, now: int, newId: nat)
    : (r: Result<seq<AttendanceLog>, AttendanceError>)
    ensures r.Failure? <==> HasOpen(logs, e)
    ensures r.Failure? ==> r.error == AlreadyClockedIn
    ensures r.Success? ==> r.value == logs + [AttendanceLog(newId, e, now, None)]
  {
    if LatestOpen(logs, e).Some? then Failure(AlreadyClockedIn)
    else Success(logs + [AttendanceLog(newId, e, now, None)])
  }

  /** Closing the latest open session of `e` at `now`: refused when there is
      none; no other log changes. */
  function EndSession(logs: seq<AttendanceLog>, e: nat, now: int)
    : (r: Result<seq<AttendanceLog>, AttendanceError>)
    ensures r.Failure? <==> !HasOpen(logs, e)
    ensures r.Failure? ==> r.error == NoOpenSession
    ensures r.Success? ==>
      exists i :: && OpenOf(logs, i, e)
                  && (forall j :: OpenOf(logs, j, e) ==> logs[j].clockIn <= logs[i].clockIn)
                  && r.value == logs[i := logs[i].(clockOut := Some(now))]
  {
    match LatestOpen(logs, e)
    case None => Failure(NoOpenSession)
    case Some(i) => Success(logs[i := logs[i].(clockOut := Some(now))])
  }

  /** The manager's clock-in for employee `e`. */
  function ClockIn(employees: set<nat>, logs: seq<AttendanceLog>, e: nat, now: int, newId: nat)
    : (r: Result<seq<AttendanceLog>, AttendanceError>)
    ensures e !in employees ==> r == Failure(EmployeeNotFound)
    ensures e in employees && HasOpen(logs, e) ==> r == Failure(AlreadyClockedIn)
    ensures e in employees && !HasOpen(logs, e) ==>
      r == Success(logs + [AttendanceLog(newId, e, now, None)])
  {
    if e !in employees then Failure(EmployeeNotFound) else StartSession(logs, e, now, newId)
  }

  /** The manager's clock-out for employee `e`. */
  function ClockOut(employees: set<nat>, logs: seq<AttendanceLog>, e: nat, now: int)
    : (r: Result<seq<AttendanceLog>, AttendanceError>)
    ensures e !in employees ==> r == Failure(EmployeeNotFound)
    ensures e in employees && !HasOpen(logs, e) ==> r == Failure(NoOpenSession)
    ensures e in employees && HasOpen(logs, e) ==> r.Success? && |r.value| == |logs|
    ensures r.Success? ==>
      exists i :: && OpenOf(logs, i, e)
                  && (forall j :: OpenOf(logs, j, e) ==> logs[j].clockIn <= logs[i].clockIn)
                  && r.value[i] == logs[i].(clockOut := Some(now))
                  && (forall j :: 0 <= j < |logs| && j != i ==> r.value[j] == logs[j])
  {
    if e !in employees then Failure(EmployeeNotFound) else EndSession(logs, e, now)
  }

  /** The self-service clock-in of the caller's own profile, if one is linked. */
  function MyClockIn(profile: Option<nat>, logs: seq<AttendanceLog>, now: int, newId: nat)
    : (r: Result<seq<AttendanceLog>, AttendanceError>)
    ensures profile.None? ==> r == Failure(NoProfile)
    ensures profile.Some? ==> (r.Failure? <==> HasOpen(logs, profile.value))
    ensures r.Success? ==> r.value == logs + [AttendanceLog(newId, profile.value, now, None)]
  {
    match profile
    case None => Failure(NoProfile)
    case Some(e) => StartSession(logs, e, now, newId)
  }

  /** The self-service clock-out of the caller's own profile, if one is linked. */
  function MyClockOut(profile: Option<nat>, logs: seq<AttendanceLog>, now: int)
    : (r: Result<seq<AttendanceLog>, AttendanceError>)
    ensures profile.None? ==> r == Failure(NoProfile)
    ensures profile.Some? ==> (r.Failure? <==> !HasOpen(logs, profile.value))
    ensures r.Success? ==> |r.value| == |logs|
  {
    match profile
    case None => Failure(NoProfile)
    case Some(e) => EndSession(logs, e, now)
  }

  /** The self-service views obey the manager's rules for the linked
      profile. */
  lemma SelfServiceSameRules(employees: set<nat>, logs: seq<AttendanceLog>, e: nat, now: int, newId: nat)
    requires e in employees
    ensures MyClockIn(Some(e), logs, now, newId) == ClockIn(employees, logs, e, now, newId)
    ensures MyClockOut(Some(e), logs, now) == ClockOut(employees, logs, e, now)
  {
  }

  /** Employees with an open session, as the dashboard marks them. */
  function ActiveIds(logs: seq<AttendanceLog>): (r: set<nat>)
    ensures forall e :: e in r <==> HasOpen(logs, e)
  {
    var r := set l | l in logs && l.clockOut.None? :: l.employee;
    assert forall e :: HasOpen(logs, e) ==> e in r by {
      forall e | HasOpen(logs, e) ensures e in r {
        var i :| 0 <= i < |logs| && OpenOf(logs, i, e);
        assert logs[i] in logs;
      }
    }
    assert forall e :: e in r ==> HasOpen(logs, e) by {
      forall e | e in r ensures HasOpen(logs, e) {
        var l :| l in logs && l.clockOut.None? && l.employee == e;
        var i :| 0 <= i < |logs| && logs[i] == l;
        assert OpenOf(logs, i, e);
      }
    }
    r
  }

  /** Clock-in keeps at most one open session per employee. */
  lemma {:induction false} StartSessionKeepsInvariant(logs: seq<AttendanceLog>, e: nat, now: int, newId: nat)
    requires AtMostOneOpen(logs)
    requires StartSession(logs, e, now, newId).Success?
    ensures AtMostOneOpen(StartSession(logs, e, now, newId).value)
  {
    var r := StartSession(logs, e, now, newId).value;
    forall i, j | 0 <= i < |r| && 0 <= j < |r| && OpenOf(r, i, r[i].employee) && OpenOf(r, j, r[i].employee)
      ensures i == j
    {
      var x := r[i].employee;
      if i < |logs| && j < |logs| {
        assert OpenOf(logs, i, x) && OpenOf(logs, j, x);
      } else if i < |logs| {
        assert OpenOf(logs, i, e);
      } else if j < |logs| {
        assert OpenOf(logs, j, e);
      }
    }
  }

  /** Clock-out keeps at most one open session per employee. */
  lemma {:induction false} EndSessionKeepsInvariant(logs: seq<AttendanceLog>, e: nat, now: int)
    requires AtMostOneOpen(logs)
    requires EndSession(logs, e, now).Success?
    ensures AtMostOneOpen(EndSession(logs, e, now).value)
  {
    var i := LatestOpen(logs, e).value;
    var r := EndSession(logs, e, now).value;
    forall a, b | 0 <= a < |r| && 0 <= b < |r| && OpenOf(r, a, r[a].employee) && OpenOf(r, b, r[a].employee)
      ensures a == b
    {
      var x := r[a].employee;
      assert OpenOf(logs, a, x) && OpenOf(logs, b, x);
    }
  }

  lemma ClockInKeepsInvariant(employees: set<nat>, logs: seq<AttendanceLog>, e: nat, now: int, newId: nat)
    requires AtMostOneOpen(logs)
    requires ClockIn(employees, logs, e, now, newId).Success?
    ensures AtMostOneOpen(ClockIn(employees, logs, e, now, newId).value)
  {
    StartSessionKeepsInvariant(logs, e, now, newId);
  }

  lemma ClockOutKeepsInvariant(employees: set<nat>, logs: seq<AttendanceLog>, e: nat, now: int)
    requires AtMostOneOpen(logs)
    requires ClockOut(employees, logs, e, now).Success?
    ensures AtMostOneOpen(ClockOut(employees, logs, e, now).value)
  {
    EndSessionKeepsInvariant(logs, e, now);
  }

  /** After a clock-in the employee is active and nobody else's status
      changed. */
  lemma ClockInActivates(employees: set<nat>, logs: seq<AttendanceLog>, e: nat, now: int, newId: nat)
    requires ClockIn(employees, logs, e, now, newId).Success?
    ensures ActiveIds(ClockIn(employees, logs, e, now, newId).value) == ActiveIds(logs) + {e}
  {
  }

  /** Under the invariant, a clock-out makes the employee inactive and
      leaves everyone else's status alone. */
  lemma ClockOutDeactivates(employees: set<nat>, logs: seq<AttendanceLog>, e: nat, now: int)
    requires AtMostOneOpen(logs)
    requires ClockOut(employees, logs, e, now).Success?
    ensures ActiveIds(ClockOut(employees, logs, e, now).value) == ActiveIds(logs) - {e}
  {
  }

  /** A second clock-in without a clock-out in between is refused. */
  lemma DoubleClockInRefused(employees: set<nat>, logs: seq<AttendanceLog>, e: nat, t1: int, t2: int, id1: nat, id2: nat)
    requires ClockIn(employees, logs, e, t1, id1).Success?
    ensures ClockIn(employees, ClockIn(employees, logs, e, t1, id1).value, e, t2, id2) == Failure(AlreadyClockedIn)
  {
  }
}

=== FILE: dates.dfy ===
/** Calendar dates of the proleptic Gregorian calendar, as Python's `date`
    and `calendar.monthrange` see them, and the month windows the finance
    reports are built on. */
module Dates {
  import opened Wrappers

  /** A `DateField` value. Only `ValidDate` values are stored in the ledgers. */
  datatype Date = Date(year: int, month: int, day: int)

  /** Why a month window cannot be built. */
  datatype DateError =
    | IllegalMonth   // `monthrange` refuses a month outside 1..12
    | YearOutOfRange // `date(y, m, 1)` refuses a year outside 1..9999

  const MinYear := 1
  const MaxYear := 9999

  predicate IsLeapYear(y: int) {
    y % 4 == 0 && (y % 100 != 0 || y % 400 == 0)
  }

  /** Number of days of month `m` of year `y` (the second half of `monthrange`). */
  function DaysInMonth(y: int, m: int): (n: int)
    requires 1 <= m <= 12
    ensures 28 <= n <= 31
    ensures n == 29 <==> m == 2 && IsLeapYear(y)
    ensures n == 28 <==> m == 2 && !IsLeapYear(y)
    ensures n == 30 <==> m == 4 || m == 6 || m == 9 || m == 11
  {
    if m == 2 then (if IsLeapYear(y) then 29 else 28)
    else if m == 4 || m == 6 || m == 9 || m == 11 then 30
    else 31
  }

  /** A date Python's `date` constructor accepts. */
  predicate ValidDate(d: Date) {
    && MinYear <= d.year <= MaxYear
    && 1 <= d.month <= 12
    && 1 <= d.day <= DaysInMonth(d.year, d.month)
  }

  /** Strict chronological order. */
  predicate Before(a: Date, b: Date) {
    || a.year < b.year
    || (a.year == b.year && a.month < b.month)
    || (a.year == b.year && a.month == b.month && a.day < b.day)
  }

  /** Chronological order including equality: the ORM's `__lte` on dates. */
  predicate OnOrBefore(a: Date, b: Date) {
    Before(a, b) || a == b
  }

  /** The inclusive range test of `date__range=(lo, hi)`. */
  predicate InRange(d: Date, lo: Date, hi: Date) {
    OnOrBefore(lo, d) && OnOrBefore(d, hi)
  }

  /** The first and last day of month `m` of year `y`, or the error the
      finance detail view runs into for a month or year Python refuses. */
  function MonthWindow(y: int, m: int): (r: Result<(Date, Date), DateError>)
    ensures r.Success? <==> 1 <= m <= 12 && MinYear <= y <= MaxYear
    ensures !(1 <= m <= 12) ==> r == Failure(IllegalMonth)
    ensures r.Success? ==> ValidDate(r.value.0) && ValidDate(r.value.1)
    ensures r.Success? ==> r.value.0.day == 1 && r.value.1.day == DaysInMonth(y, m)
  {
    if !(1 <= m <= 12) then Failure(IllegalMonth)
    else if !(MinYear <= y <= MaxYear) then Failure(YearOutOfRange)
    else Success((Date(y, m, 1), Date(y, m, DaysInMonth(y, m))))
  }

  /** A valid date lies in the window of (y, m) exactly when it is a day of
      that month: the window is the whole month, leap days included. */
  lemma MonthWindowIsMonth(y: int, m: int, d: Date)
    requires MonthWindow(y, m).Success?
    requires ValidDate(d)
    ensures InRange(d, MonthWindow(y, m).value.0, MonthWindow(y, m).value.1)
        <==> d.year == y && d.month == m
  {
  }

  /** February 29 is in the February window exactly in leap years. */
  lemma LeapDayInWindow(y: int)
    requires MinYear <= y <= MaxYear
    ensures InRange(Date(y, 2, 29), MonthWindow(y, 2).value.0, MonthWindow(y, 2).value.1)
        <==> IsLeapYear(y)
  {
  }

  /** Two distinct dates are always ordered one way or the other. */
  lemma BeforeTotal(a: Date, b: Date)
    ensures a == b || Before(a, b) || Before(b, a)
  {
  }
}

=== FILE: finance.dfy ===
/** The banking ledger: accounts with an opening balance, dated credit and
    debit transactions, and the balances and monthly summaries the account
    pages show. Amounts are integer hundredths. */
module Finance {
  import opened Wrappers
  import opened Dates
  import Ledger
  import Validators

  datatype TxType = Credit | Debit

  datatype BankAccount = BankAccount(
    id: nat,
    name: string,
    accountNumber: string,
    bankName: string,
    openingBalance: int,   // defaults to 0.00
    isActive: bool,
    notes: string)

  /** A transaction belongs to exactly one account, named by `account`.
      Its creator and creation time are not modelled. */
  datatype BankTransaction = BankTransaction(
    id: nat,
    account: nat,
    txType: TxType,
    title: string,
    amount: int,           // defaults to 0.00; positivity is the form's job
    date: Date,
    reference: string,
    notes: string)

  /** An account as created with the model defaults. */
  function NewAccount(id: nat, name: string): (a: BankAccount)
    ensures a.id == id && a.openingBalance == 0 && a.isActive
  {
    BankAccount(id, name, "", "", 0, true, "")
  }

  function Amount(t: BankTransaction): int { t.amount }
  predicate IsCredit(t: BankTransaction) { t.txType == Credit }
  predicate IsDebit(t: BankTransaction) { t.txType == Debit }

  /** The key of `ordering = ["-date", "-id"]`. */
  function StampOf(t: BankTransaction): Ledger.Stamp { Ledger.Stamp(t.date, t.id) }

  /** Every stored amount is at least 0, as every form-entered one is. */
  predicate AmountsNonNegative(txs: seq<BankTransaction>) {
    forall t :: t in txs ==> t.amount >= 0
  }

  // ---------------------------------------------------------------------------
  // Balances

  function OfAccount(id: nat): BankTransaction -> bool {
    (t: BankTransaction) => t.account == id
  }

  /** `account.transactions`. */
  function Transactions(txs: seq<BankTransaction>, id: nat): seq<BankTransaction> {
    Ledger.Filter(txs, OfAccount(id))
  }

  /** Sum of the credit amounts, 0.00 when there are none. */
  function Credits(txs: seq<BankTransaction>): int {
    Ledger.SumBy(Ledger.Filter(txs, IsCredit), Amount)
  }

  /** Sum of the debit amounts, 0.00 when there are none. */
  function Debits(txs: seq<BankTransaction>): int {
    Ledger.SumBy(Ledger.Filter(txs, IsDebit), Amount)
  }

  /** Opening balance plus credits minus debits. */
  function Balance(opening: int, txs: seq<BankTransaction>): int {
    opening + Credits(txs) - Debits(txs)
  }

  /** The balance of one account over all of its transactions. */
  function AccountBalance(a: BankAccount, txs: seq<BankTransaction>): int {
    Balance(a.openingBalance, Transactions(txs, a.id))
  }

  /** The effect of one transaction on its account's balance. */
  function Signed(t: BankTransaction): int {
    if t.txType == Credit then t.amount else -t.amount
  }

  /** Credits minus debits is the sum of the signed amounts: the two
      filtered aggregates together count every transaction exactly once. */
  lemma {:induction false} NetIsSignedSum(txs: seq<BankTransaction>)
    ensures Credits(txs) - Debits(txs) == Ledger.SumBy(txs, Signed)
  {
    if |txs| > 0 {
      NetIsSignedSum(txs[1..]);
      assert txs == [txs[0]] + txs[1..];
      if IsCredit(txs[0]) {
        assert Ledger.Filter(txs, IsCredit) == [txs[0]] + Ledger.Filter(txs[1..], IsCredit);
        assert Ledger.Filter(txs, IsDebit) == Ledger.Filter(txs[1..], IsDebit);
        assert ([txs[0]] + Ledger.Filter(txs[1..], IsCredit))[1..] == Ledger.Filter(txs[1..], IsCredit);
      } else {
        assert Ledger.Filter(txs, IsDebit) == [txs[0]] + Ledger.Filter(txs[1..], IsDebit);
        assert Ledger.Filter(txs, IsCredit) == Ledger.Filter(txs[1..], IsCredit);
        assert ([txs[0]] + Ledger.Filter(txs[1..], IsDebit))[1..] == Ledger.Filter(txs[1..], IsDebit);
      }
    }
  }

  /** The balance is opening plus the signed amounts. */
  lemma BalanceIsSignedSum(opening: int, txs: seq<BankTransaction>)
    ensures Balance(opening, txs) == opening + Ledger.SumBy(txs, Signed)
  {
    NetIsSignedSum(txs);
  }

  /** Credits and debits depend only on which transactions there are, not on
      their order. */
  lemma TotalsOrderIndependent(a: seq<BankTransaction>, b: seq<BankTransaction>)
    requires multiset(a) == multiset(b)
    ensures Credits(a) == Credits(b) && Debits(a) == Debits(b)
  {
    var ca, cb := Ledger.Filter(a, IsCredit), Ledger.Filter(b, IsCredit);
    var da, db := Ledger.Filter(a, IsDebit), Ledger.Filter(b, IsDebit);
    Ledger.FilterSubMultiset(a, b, IsCredit);
    Ledger.FilterSubMultiset(a, b, IsDebit);
    Ledger.SumByPermutation(ca, cb, Amount);
    Ledger.SumByPermutation(da, db, Amount);
  }

  /** The balance is independent of transaction order. */
  lemma BalanceOrderIndependent(opening: int, a: seq<BankTransaction>, b: seq<BankTransaction>)
    requires multiset(a) == multiset(b)
    ensures Balance(opening, a) == Balance(opening, b)
  {
    TotalsOrderIndependent(a, b);
  }

  // ---------------------------------------------------------------------------
  // The account list page

  /** One line of the account list. */
  datatype Row = Row(account: BankAccount, credits: int, debits: int, balance: int)

  /** Sum of the balances of `accounts`. */
  function TotalBalance(accounts: seq<BankAccount>, txs: seq<BankTransaction>): int {
    if |accounts| == 0 then 0
    else AccountBalance(accounts[0], txs) + TotalBalance(accounts[1..], txs)
  }

  lemma {:induction false} TotalBalanceAppend(accounts: seq<BankAccount>, a: BankAccount, txs: seq<BankTransaction>)
    ensures TotalBalance(accounts + [a], txs) == TotalBalance(accounts, txs) + AccountBalance(a, txs)
  {
    if |accounts| > 0 {
      assert (accounts + [a])[1..] == accounts[1..] + [a];
      TotalBalanceAppend(accounts[1..], a, txs);
    } else {
      assert accounts + [a] == [a];
    }
  }

  /** The total over the first `i + 1` accounts adds the balance of account `i`. */
  lemma TotalBalancePrefixStep(accounts: seq<BankAccount>, i: nat, txs: seq<BankTransaction>)
    requires i < |accounts|
    ensures TotalBalance(accounts[..i + 1], txs) == TotalBalance(accounts[..i], txs) + AccountBalance(accounts[i], txs)
  {
    TotalBalanceAppend(accounts[..i], accounts[i], txs);
    assert accounts[..i + 1] == accounts[..i] + [accounts[i]];
  }

  /** The account-list line of account `a`. */
  function RowFor(a: BankAccount, txs: seq<BankTransaction>): (r: Row)
    ensures r.account == a
    ensures r.credits == Credits(Transactions(txs, a.id))
    ensures r.debits == Debits(Transactions(txs, a.id))
    ensures r.balance == AccountBalance(a, txs)
    ensures r.balance == a.openingBalance + r.credits - r.debits
  {
    var own := Transactions(txs, a.id);
    Row(a, Credits(own), Debits(own), a.openingBalance + Credits(own) - Debits(own))
  }

  /** The list line's balance is, equivalently, the opening balance plus
      every signed amount of the account. */
  lemma RowBalanceIsSignedSum(a: BankAccount, txs: seq<BankTransaction>)
    ensures RowFor(a, txs).balance == a.openingBalance + Ledger.SumBy(Transactions(txs, a.id), Signed)
  {
    BalanceIsSignedSum(a.openingBalance, Transactions(txs, a.id));
  }

  /** The rows of the account list, one per account in the given order, and
      the grand total of their balances. */
  method AccountList(accounts: seq<BankAccount>, txs: seq<BankTransaction>)
    returns (rows: seq<Row>, total: int)
    ensures |rows| == |accounts|
    ensures forall i :: 0 <= i < |rows| ==> rows[i] == RowFor(accounts[i], txs)
    ensures total == TotalBalance(accounts, txs)
  {
    rows := seq(|accounts|, k requires 0 <= k < |accounts| => RowFor(accounts[k], txs));
    total := 0;
    var i := 0;
    while i < |rows|
      invariant 0 <= i <= |accounts|
      invariant total == TotalBalance(accounts[..i], txs)
    {
      TotalBalancePrefixStep(accounts, i, txs);
      total := total + rows[i].balance;
      i := i + 1;
    }
    assert accounts[..i] == accounts;
  }

  // ---------------------------------------------------------------------------
  // The account detail page

  /** The `type` query parameter: only "credit" and "debit" filter. */
  function TypeFilter(s: string): (r: Option<TxType>)
    ensures r == Some(Credit) <==> s == "credit"
    ensures r == Some(Debit) <==> s == "debit"
  {
    if s == "credit" then Some(Credit) else if s == "debit" then Some(Debit) else None
  }

  /** The extra filters of the detail page; an empty `from`/`to` is `None`. */
  datatype Filters = Filters(from: Option<Date>, to: Option<Date>, txType: string)

  predicate PassesFilters(t: BankTransaction, f: Filters) {
    && (f.from.Some? ==> OnOrBefore(f.from.value, t.date))
    && (f.to.Some? ==> OnOrBefore(t.date, f.to.value))
    && (TypeFilter(f.txType).Some? ==> t.txType == TypeFilter(f.txType).value)
  }

  /** `d` is a day of month `m` of year `y`. */
  predicate InMonth(d: Date, y: int, m: int) {
    1 <= m <= 12 && d.year == y && d.month == m && 1 <= d.day <= DaysInMonth(y, m)
  }

  function InMonthOf(y: int, m: int): BankTransaction -> bool {
    (t: BankTransaction) => InMonth(t.date, y, m)
  }

  /** The account's transactions dated in month (y, m). */
  function MonthOf(account: BankAccount, txs: seq<BankTransaction>, y: int, m: int): seq<BankTransaction> {
    Ledger.Filter(Transactions(txs, account.id), InMonthOf(y, m))
  }

  function InWindow(lo: Date, hi: Date): BankTransaction -> bool {
    (t: BankTransaction) => InRange(t.date, lo, hi)
  }

  function DatedFrom(d: Date): BankTransaction -> bool {
    (t: BankTransaction) => OnOrBefore(d, t.date)
  }

  function DatedTo(d: Date): BankTransaction -> bool {
    (t: BankTransaction) => OnOrBefore(t.date, d)
  }

  function OfType(k: TxType): BankTransaction -> bool {
    (t: BankTransaction) => t.txType == k
  }

  /** The from / to / type narrowing, each applied only when given. */
  function ApplyFilters(s: seq<BankTransaction>, f: Filters): (r: seq<BankTransaction>)
    ensures forall t :: t in r <==> t in s && PassesFilters(t, f)
    // each passing transaction is kept as often as it occurs, the rest are dropped
    ensures forall t :: multiset(r)[t] == if PassesFilters(t, f) then multiset(s)[t] else 0
  {
    var s1 := if f.from.Some? then Ledger.FilterCount(s, DatedFrom(f.from.value));
                                  Ledger.Filter(s, DatedFrom(f.from.value))
              else s;
    var s2 := if f.to.Some? then Ledger.FilterCount(s1, DatedTo(f.to.value));
                                Ledger.Filter(s1, DatedTo(f.to.value))
              else s1;
    var k := TypeFilter(f.txType);
    if k.Some? then Ledger.FilterCount(s2, OfType(k.value)); Ledger.Filter(s2, OfType(k.value))
    else s2
  }

  /** The filters only ever drop transactions. */
  lemma ApplyFiltersShrinks(s: seq<BankTransaction>, f: Filters)
    ensures multiset(ApplyFilters(s, f)) <= multiset(s)
  {
    var s1 := if f.from.Some? then Ledger.Filter(s, DatedFrom(f.from.value)) else s;
    var s2 := if f.to.Some? then Ledger.Filter(s1, DatedTo(f.to.value)) else s1;
    var k := TypeFilter(f.txType);
    if f.from.Some? { Ledger.FilterIsSubMultiset(s, DatedFrom(f.from.value)); }
    if f.to.Some? { Ledger.FilterIsSubMultiset(s1, DatedTo(f.to.value)); }
    if k.Some? { Ledger.FilterIsSubMultiset(s2, OfType(k.value)); }
  }

  /** What the detail page shows. */
  datatype Detail = Detail(
    transactions: seq<BankTransaction>,
    currentBalance: int,
    totalCredits: int,
    totalDebits: int,
    monthCredits: int,
    monthDebits: int,
    monthNet: int)

  /** The account's transactions of month (y, m). */
  function MonthTransactions(account: BankAccount, txs: seq<BankTransaction>, lo: Date, hi: Date): seq<BankTransaction> {
    Ledger.Filter(Transactions(txs, account.id), InWindow(lo, hi))
  }

  /** The detail page of `account` for month (y, m) with the extra filters
      `f`, or the error a month or year outside Python's range raises. */
  function AccountDetail(account: BankAccount, txs: seq<BankTransaction>, y: int, m: int, f: Filters)
    : (r: Result<Detail, DateError>)
    ensures r.Success? <==> 1 <= m <= 12 && MinYear <= y <= MaxYear
    ensures r.Success? ==> Ledger.NewestFirst(r.value.transactions, StampOf)
    // the list is the month window narrowed by the extra filters
    ensures r.Success? ==> forall t :: t in r.value.transactions <==>
      t in txs && t.account == account.id && InMonth(t.date, y, m) && PassesFilters(t, f)
    // and each such transaction is listed exactly as often as it is stored
    ensures r.Success? ==>
      forall t :: multiset(r.value.transactions)[t] ==
        if t.account == account.id && InMonth(t.date, y, m) && PassesFilters(t, f) then multiset(txs)[t] else 0
    ensures r.Success? ==> r.value.totalCredits == Credits(r.value.transactions)
    ensures r.Success? ==> r.value.totalDebits == Debits(r.value.transactions)
    // the month summary covers the whole month and ignores the extra filters
    ensures r.Success? ==> r.value.monthCredits == Credits(MonthOf(account, txs, y, m))
    ensures r.Success? ==> r.value.monthDebits == Debits(MonthOf(account, txs, y, m))
    ensures r.Success? ==> r.value.monthNet == r.value.monthCredits - r.value.monthDebits
    // the current balance ignores month and filters alike
    ensures r.Success? ==> r.value.currentBalance == AccountBalance(account, txs)
  {
    match MonthWindow(y, m)
    case Failure(e) => Failure(e)
    case Success(w) =>
      var month := MonthTransactions(account, txs, w.0, w.1);
      var listed := Ledger.SortNewestFirst(ApplyFilters(month, f), StampOf);
      WindowIsMonth(account, txs, y, m);
      ListedContents(account, txs, y, m, f);
      Success(Detail(
        listed,
        Balance(account.openingBalance, Transactions(txs, account.id)),
        Credits(listed),
        Debits(listed),
        Credits(month),
        Debits(month),
        Credits(month) - Debits(month)))
  }

  /** What the sorted, filtered list contains, and how often. */
  lemma ListedContents(account: BankAccount, txs: seq<BankTransaction>, y: int, m: int, f: Filters)
    requires 1 <= m <= 12 && MinYear <= y <= MaxYear
    ensures var w := MonthWindow(y, m).value;
      var listed := Ledger.SortNewestFirst(ApplyFilters(MonthTransactions(account, txs, w.0, w.1), f), StampOf);
      && (forall t :: multiset(listed)[t] ==
            if t.account == account.id && InMonth(t.date, y, m) && PassesFilters(t, f) then multiset(txs)[t] else 0)
      && (forall t :: t in listed <==>
            t in txs && t.account == account.id && InMonth(t.date, y, m) && PassesFilters(t, f))
  {
    var w := MonthWindow(y, m).value;
    var own := Transactions(txs, account.id);
    var month := MonthTransactions(account, txs, w.0, w.1);
    var shown := ApplyFilters(month, f);
    var listed := Ledger.SortNewestFirst(shown, StampOf);
    Ledger.FilterCount(txs, OfAccount(account.id));
    Ledger.FilterCount(own, InWindow(w.0, w.1));
    assert forall t :: InWindow(w.0, w.1)(t) == InMonthOf(y, m)(t);
    forall t: BankTransaction
      ensures multiset(listed)[t] ==
        if t.account == account.id && InMonth(t.date, y, m) && PassesFilters(t, f) then multiset(txs)[t] else 0
      ensures t in listed <==> t in txs && t.account == account.id && InMonth(t.date, y, m) && PassesFilters(t, f)
    {
      assert t in listed <==> t in multiset(listed);
      assert t in txs <==> t in multiset(txs);
    }
  }

  /** The inclusive window from the first to the last day of the month
      selects exactly the transactions dated in that month. */
  lemma WindowIsMonth(account: BankAccount, txs: seq<BankTransaction>, y: int, m: int)
    requires 1 <= m <= 12 && MinYear <= y <= MaxYear
    ensures var w := MonthWindow(y, m).value;
      && multiset(MonthTransactions(account, txs, w.0, w.1)) == multiset(MonthOf(account, txs, y, m))
      && Credits(MonthTransactions(account, txs, w.0, w.1)) == Credits(MonthOf(account, txs, y, m))
      && Debits(MonthTransactions(account, txs, w.0, w.1)) == Debits(MonthOf(account, txs, y, m))
      && forall t :: t in MonthTransactions(account, txs, w.0, w.1) <==>
           t in txs && t.account == account.id && InMonth(t.date, y, m)
  {
    var w := MonthWindow(y, m).value;
    var own := Transactions(txs, account.id);
    assert forall t :: InWindow(w.0, w.1)(t) == InMonthOf(y, m)(t);
    var a, b := MonthTransactions(account, txs, w.0, w.1), MonthOf(account, txs, y, m);
    Ledger.FilterCount(own, InWindow(w.0, w.1));
    Ledger.FilterCount(own, InMonthOf(y, m));
    assert multiset(a) == multiset(b) by {
      forall t ensures multiset(a)[t] == multiset(b)[t] {}
    }
    TotalsOrderIndependent(a, b);
  }

  /** With non-negative amounts, the totals of the filtered list never
      exceed the month's totals. */
  lemma FilteredTotalsWithinMonth(account: BankAccount, txs: seq<BankTransaction>, y: int, m: int, f: Filters)
    requires 1 <= m <= 12 && MinYear <= y <= MaxYear
    requires AmountsNonNegative(txs)
    ensures AccountDetail(account, txs, y, m, f).value.totalCredits
         <= AccountDetail(account, txs, y, m, f).value.monthCredits
    ensures AccountDetail(account, txs, y, m, f).value.totalDebits
         <= AccountDetail(account, txs, y, m, f).value.monthDebits
  {
    var w := MonthWindow(y, m).value;
    var month := MonthTransactions(account, txs, w.0, w.1);
    var shown := ApplyFilters(month, f);
    var listed := Ledger.SortNewestFirst(shown, StampOf);
    TotalsOrderIndependent(listed, shown);
    ApplyFiltersShrinks(month, f);
    assert AmountsNonNegative(month);
    SubListTotals(shown, month);
  }

  /** A sub-multiset of non-negative transactions has no larger totals. */
  lemma SubListTotals(a: seq<BankTransaction>, b: seq<BankTransaction>)
    requires multiset(a) <= multiset(b)
    requires AmountsNonNegative(b)
    ensures Credits(a) <= Credits(b) && Debits(a) <= Debits(b)
  {
    var ca, cb := Ledger.Filter(a, IsCredit), Ledger.Filter(b, IsCredit);
    var da, db := Ledger.Filter(a, IsDebit), Ledger.Filter(b, IsDebit);
    Ledger.FilterSubMultiset(a, b, IsCredit);
    Ledger.FilterSubMultiset(a, b, IsDebit);
    assert Ledger.NonNegativeOn(cb, Amount) by {
      forall i | 0 <= i < |cb| ensures Amount(cb[i]) >= 0 { assert cb[i] in cb; }
    }
    assert Ledger.NonNegativeOn(db, Amount) by {
      forall i | 0 <= i < |db| ensures Amount(db[i]) >= 0 { assert db[i] in db; }
    }
    Ledger.SumBySubMultiset(ca, cb, Amount);
    Ledger.SumBySubMultiset(da, db, Amount);
  }

  /** A `type` value other than "credit" and "debit" is ignored. */
  lemma UnknownTypeIgnored(account: BankAccount, txs: seq<BankTransaction>, y: int, m: int,
                           from: Option<Date>, to: Option<Date>, s: string)
    requires s != "credit" && s != "debit"
    ensures AccountDetail(account, txs, y, m, Filters(from, to, s))
         == AccountDetail(account, txs, y, m, Filters(from, to, ""))
  {
  }

  // ---------------------------------------------------------------------------
  // Adding and deleting transactions

  /** The bank-transaction form's fields. `date` is `None` when left
      empty; the type is one of the two choices. */
  datatype TxForm = TxForm(
    txType: TxType,
    date: Option<Date>,
    title: string,
    amount: Option<int>,
    reference: string,
    notes: string)

  /** The date and title checks of the transaction form. */
  function DateAndTitleErrors(form: TxForm): (errs: map<string, Validators.FieldError>)
    ensures errs.Keys <= {"date", "title"}
    ensures "date" in errs <==> form.date.None? || !ValidDate(form.date.value)
    ensures "title" in errs <==> |form.title| == 0 || |form.title| > 160 || '\0' in form.title
  {
    var e1 := Validators.NoteField(map[], "date", Validators.CleanDate(form.date));
    Validators.NoteField(e1, "title", Validators.CleanText(form.title, false, 160))
  }

  /** The amount, reference and notes checks of the transaction form. */
  function AmountAndTextErrors(form: TxForm): (errs: map<string, Validators.FieldError>)
    ensures errs.Keys <= {"amount", "reference", "notes"}
    ensures "amount" in errs <==> form.amount.None? || form.amount.value <= 0
    ensures "reference" in errs <==> |form.reference| > 80 || '\0' in form.reference
    ensures "notes" in errs <==> '\0' in form.notes
  {
    var e1 := Validators.NoteField(map[], "amount", Validators.CleanAmountField(form.amount));
    var e2 := Validators.NoteField(e1, "reference", Validators.CleanText(form.reference, true, 80));
    Validators.NoteField(e2, "notes", Validators.CleanFreeText(form.notes))
  }

  /** The form's errors: a required date, a required title of at most 160
      characters, a positive amount and a reference of at most 80
      characters, and notes of any length; no text may hold a null
      character. */
  function FormErrors(form: TxForm): (errs: map<string, Validators.FieldError>)
    ensures errs.Keys <= {"date", "title", "amount", "reference", "notes"}
    ensures "date" in errs <==> form.date.None? || !ValidDate(form.date.value)
    ensures "title" in errs <==> |form.title| == 0 || |form.title| > 160 || '\0' in form.title
    ensures "amount" in errs <==> form.amount.None? || form.amount.value <= 0
    ensures "reference" in errs <==> |form.reference| > 80 || '\0' in form.reference
    ensures "notes" in errs <==> '\0' in form.notes
  {
    var head, rest := DateAndTitleErrors(form), AmountAndTextErrors(form);
    assert "date" !in rest && "title" !in rest;
    assert "amount" !in head && "reference" !in head && "notes" !in head;
    head + rest
  }

  /** A form with no errors. */
  predicate FormValid(form: TxForm) {
    && form.date.Some? && ValidDate(form.date.value)
    && 0 < |form.title| <= 160 && '\0' !in form.title
    && form.amount.Some? && form.amount.value > 0
    && |form.reference| <= 80 && '\0' !in form.reference
    && '\0' !in form.notes
  }

  /** The record a valid form stores on account `accountId`. */
  function Record(form: TxForm, accountId: nat, newId: nat): BankTransaction
    requires FormValid(form)
  {
    BankTransaction(newId, accountId, form.txType, form.title, form.amount.value,
                    form.date.value, form.reference, form.notes)
  }

  datatype ViewError = NotFound | InvalidForm(errors: map<string, Validators.FieldError>)

  function Id(t: BankTransaction): nat { t.id }

  /** Recording a transaction on an existing account: a non-POST request
      changes nothing; a form with errors is refused with them; otherwise
      the record is appended under the fresh primary key `newId`. */
  function TxAdd(accountIds: set<nat>, txs: seq<BankTransaction>, accountId: nat,
                 verb: Ledger.RequestMethod, form: TxForm, newId: nat)
    : (r: Result<seq<BankTransaction>, ViewError>)
    ensures accountId !in accountIds ==> r == Failure(NotFound)
    ensures accountId in accountIds && verb != Ledger.Post ==> r == Success(txs)
    ensures accountId in accountIds && verb == Ledger.Post ==> (r.Failure? <==> !FormValid(form))
    ensures r.Failure? && accountId in accountIds ==>
      r.error == InvalidForm(FormErrors(form))
    ensures r.Success? && verb == Ledger.Post ==>
      FormValid(form) && r.value == txs + [Record(form, accountId, newId)]
  {
    if accountId !in accountIds then Failure(NotFound)
    else if verb != Ledger.Post then Success(txs)
    else
      var errs := FormErrors(form);
      if errs != map[] then Failure(InvalidForm(errs))
      else
        assert "date" !in errs && "title" !in errs && "amount" !in errs && "reference" !in errs;
        assert "notes" !in errs;
        Success(txs + [Record(form, accountId, newId)])
  }

  /** Only strictly positive amounts are ever stored through the forms. */
  predicate AmountsPositive(txs: seq<BankTransaction>) {
    forall t :: t in txs ==> t.amount > 0
  }

  lemma TxAddKeepsAmountsPositive(accountIds: set<nat>, txs: seq<BankTransaction>, accountId: nat,
                                  verb: Ledger.RequestMethod, form: TxForm, newId: nat)
    requires AmountsPositive(txs)
    requires TxAdd(accountIds, txs, accountId, verb, form, newId).Success?
    ensures AmountsPositive(TxAdd(accountIds, txs, accountId, verb, form, newId).value)
  {
  }

  /** A stored transaction moves its own account's balance by its signed
      amount and leaves every other balance alone. */
  lemma TxAddUpdatesBalance(accountIds: set<nat>, txs: seq<BankTransaction>, accountId: nat,
                            form: TxForm, newId: nat, a: BankAccount)
    requires TxAdd(accountIds, txs, accountId, Ledger.Post, form, newId).Success?
    ensures
      var t := Record(form, accountId, newId);
      AccountBalance(a, TxAdd(accountIds, txs, accountId, Ledger.Post, form, newId).value)
        == AccountBalance(a, txs) + (if accountId == a.id then Signed(t) else 0)
  {
    var t := Record(form, accountId, newId);
    var p := OfAccount(a.id);
    Ledger.FilterAppend(txs, [t], p);
    var own, added := Transactions(txs, a.id), Ledger.Filter([t], p);
    Ledger.SumByAppend(own, added, Signed);
    BalanceIsSignedSum(a.openingBalance, own + added);
    BalanceIsSignedSum(a.openingBalance, own);
    if accountId == a.id {
      assert added == [t];
    } else {
      assert added == [];
    }
  }

  /** Deleting a transaction: an unknown id is not found, a non-POST
      request changes nothing, a POST removes the record. */
  function TxDelete(txs: seq<BankTransaction>, txId: nat, verb: Ledger.RequestMethod)
    : (r: Result<seq<BankTransaction>, ViewError>)
    ensures r.Failure? <==> forall t :: t in txs ==> t.id != txId
    ensures r.Failure? ==> r.error == NotFound
    ensures r.Success? && verb != Ledger.Post ==> r.value == txs
    ensures r.Success? && verb == Ledger.Post ==>
      var i := Ledger.IndexOf(txs, Id, txId).value;
      txs[i].id == txId && r.value == Ledger.RemoveAt(txs, i)
  {
    match Ledger.IndexOf(txs, Id, txId)
    case None => Failure(NotFound)
    case Some(i) => if verb == Ledger.Post then Success(Ledger.RemoveAt(txs, i)) else Success(txs)
  }

  /** After a POST delete the transaction is gone from every later
      computation: its account's balance loses exactly its signed amount
      and every other account's balance is unchanged. */
  lemma DeleteUpdatesBalances(txs: seq<BankTransaction>, txId: nat, a: BankAccount)
    requires TxDelete(txs, txId, Ledger.Post).Success?
    ensures
      var t := txs[Ledger.IndexOf(txs, Id, txId).value];
      AccountBalance(a, TxDelete(txs, txId, Ledger.Post).value)
        == AccountBalance(a, txs) - (if t.account == a.id then Signed(t) else 0)
  {
    var i := Ledger.IndexOf(txs, Id, txId).value;
    var rest := TxDelete(txs, txId, Ledger.Post).value;
    assert rest == Ledger.RemoveAt(txs, i);
    Ledger.FilterSumRemoveAt(txs, i, OfAccount(a.id), Signed);
    BalanceIsSignedSum(a.openingBalance, Transactions(txs, a.id));
    BalanceIsSignedSum(a.openingBalance, Transactions(rest, a.id));
  }

  /** An add under a fresh primary key keeps the keys unique, as the delete
      lemma below expects. */
  lemma TxAddKeepsIdsUnique(accountIds: set<nat>, txs: seq<BankTransaction>, accountId: nat,
                            verb: Ledger.RequestMethod, form: TxForm, newId: nat)
    requires Ledger.UniqueKeys(txs, Id)
    requires forall t :: t in txs ==> t.id != newId
    requires TxAdd(accountIds, txs, accountId, verb, form, newId).Success?
    ensures Ledger.UniqueKeys(TxAdd(accountIds, txs, accountId, verb, form, newId).value, Id)
  {
    var r := TxAdd(accountIds, txs, accountId, verb, form, newId).value;
    forall i, j | 0 <= i < j < |r| ensures Id(r[i]) != Id(r[j]) {
      assert r[i] == txs[i];
      if j == |txs| {
        assert txs[i] in txs;
      }
    }
  }

  /** With unique primary keys, nothing with the deleted id remains. */
  lemma DeleteRemovesId(txs: seq<BankTransaction>, txId: nat)
    requires Ledger.UniqueKeys(txs, Id)
    requires TxDelete(txs, txId, Ledger.Post).Success?
    ensures forall t :: t in TxDelete(txs, txId, Ledger.Post).value ==> t.id != txId
  {
    Ledger.RemoveFoundKey(txs, Id, txId);
  }
}

=== FILE: inventory.dfy ===
/** Quantity arithmetic shared by every stock movement of both inventory
    apps and by sale items: receiving adds, withdrawing subtracts with a
    floor at zero. */
module Stock {

  /** On-hand quantity after receiving `n` units. No upper bound is checked. */
  function Receive(q: int, n: int): (r: int)
    ensures r - n == q
  {
    q + n
  }

  /** On-hand quantity after withdrawing `n` units: an over-withdrawal is
      silently truncated to an empty stock instead of being refused. */
  function Withdraw(q: int, n: int): (r: int)
    ensures r >= 0
    ensures n <= q ==> r == q - n
    ensures n >= q ==> r == 0
  {
    if q - n < 0 then 0 else q - n
  }

  /** Receiving `n` and then withdrawing the same `n` restores a
      non-negative stock. */
  lemma ReceiveThenWithdraw(q: int, n: int)
    requires q >= 0
    ensures Withdraw(Receive(q, n), n) == q
  {
  }

  /** Two withdrawals of non-negative amounts are one withdrawal of their sum. */
  lemma WithdrawTwice(q: int, a: int, b: int)
    requires a >= 0 && b >= 0
    ensures Withdraw(Withdraw(q, a), b) == Withdraw(q, a + b)
  {
  }
}

/** The current inventory app: products tracked by unit count, optionally
    with boxed-weight fields, and the stock-in / stock-out records whose
    saving adjusts the product's quantity. Money and weights are integer
    hundredths (of a cedi, of a kilogram). */
module Inventory {
  import opened Wrappers
  import Stock

  datatype TrackMethod = Unit | BoxedWeight

  datatype Product = Product(
    name: string,
    sku: Option<string>,
    trackMethod: TrackMethod,
    unitPrice: int,        // hundredths
    wholesalePrice: int,   // hundredths
    boxWeightKg: int,      // hundredths of a kg per full box
    isWeighted: bool,
    boxesInStock: int,
    boxRemainingKg: int,   // hundredths of a kg left in the box being used
    quantity: int,         // current unit balance
    minQuantityAlert: int)

  /** A new product with the model's field defaults. */
  function NewProduct(name: string, unitPrice: int): (p: Product)
    ensures p.trackMethod == Unit && !p.isWeighted
    ensures p.quantity == 0 && p.boxesInStock == 0 && p.minQuantityAlert == 5
    ensures p.wholesalePrice == 0 && p.boxWeightKg == 0 && p.boxRemainingKg == 0
  {
    Product(name, None, Unit, unitPrice, 0, 0, false, 0, 0, 0, 5)
  }

  datatype OutReason = Sold | Disposed | Transfer

  /** Stock-in (receiving). The creator and timestamp are not modelled. */
  datatype StockEntry = StockEntry(quantity: int, unitPrice: int, notes: string)

  /** Stock-out (sold, disposed or transferred). */
  datatype StockOut = StockOut(quantity: int, reason: OutReason)

  /** The gate of the weight computation: it looks at `is_weighted`, not at
      `track_method`, and needs at least one box of positive weight. */
  predicate HasWeighedStock(p: Product) {
    p.isWeighted && p.boxesInStock > 0 && p.boxWeightKg > 0
  }

  /** On-hand weight of a boxed product, in hundredths of a kg: the full
      boxes beyond the current one plus what is left of the current one. A
      negative remainder counts as 0, and a zero remainder (never
      initialised) counts as a full box. */
  function AvailableWeightKg(p: Product): (w: int)
    ensures w >= 0
    ensures w > 0 <==> HasWeighedStock(p)
    ensures w > 0 ==> (p.boxesInStock - 1) * p.boxWeightKg < w
    ensures w > 0 && p.boxRemainingKg <= 0 ==> w == p.boxesInStock * p.boxWeightKg
    ensures w > 0 && p.boxRemainingKg <= p.boxWeightKg ==> w <= p.boxesInStock * p.boxWeightKg
  {
    if !p.isWeighted || p.boxesInStock <= 0 || p.boxWeightKg <= 0 then 0
    else
      var bw := p.boxWeightKg;
      var br := if p.boxRemainingKg < 0 then 0 else p.boxRemainingKg;
      var current := if br == 0 && p.boxesInStock > 0 then bw else br;
      var fullBoxes := if p.boxesInStock - 1 > 0 then p.boxesInStock - 1 else 0;
      assert fullBoxes * bw + bw == p.boxesInStock * bw;
      fullBoxes * bw + current
  }

  /** With a partly used current box, the weight is exactly the full boxes
      behind it plus the remainder. */
  lemma PartialBoxWeight(p: Product)
    requires HasWeighedStock(p)
    requires 0 < p.boxRemainingKg
    ensures AvailableWeightKg(p) == (p.boxesInStock - 1) * p.boxWeightKg + p.boxRemainingKg
  {
  }

  /** Three untouched 30 kg boxes hold 90.00 kg. */
  lemma ThreeFreshBoxes(p: Product)
    requires p.isWeighted && p.boxesInStock == 3
    requires p.boxWeightKg == 3000 && p.boxRemainingKg == 0
    ensures AvailableWeightKg(p) == 9000
  {
  }

  /** One more sealed box behind the current one adds exactly one box weight. */
  lemma {:induction false} ExtraBoxAddsBoxWeight(p: Product)
    requires HasWeighedStock(p)
    ensures AvailableWeightKg(p.(boxesInStock := p.boxesInStock + 1))
         == AvailableWeightKg(p) + p.boxWeightKg
  {
    var bw := p.boxWeightKg;
    assert p.boxesInStock * bw == (p.boxesInStock - 1) * bw + bw;
  }

  /** The tracking-method tag plays no part in the weight computation. */
  lemma WeightIgnoresTrackMethod(p: Product, m: TrackMethod)
    ensures AvailableWeightKg(p.(trackMethod := m)) == AvailableWeightKg(p)
  {
  }

  /** Saving a stock entry: the product's quantity grows by the entry's
      quantity and no other product field changes. */
  function SaveStockEntry(e: StockEntry, p: Product): (r: Product)
    ensures r.quantity == p.quantity + e.quantity
    ensures r.(quantity := p.quantity) == p
  {
    p.(quantity := Stock.Receive(p.quantity, e.quantity))
  }

  /** Saving a stock-out: the product's quantity shrinks by the requested
      amount, floored at zero, and no other product field changes. */
  function SaveStockOut(o: StockOut, p: Product): (r: Product)
    ensures r.quantity >= 0
    ensures o.quantity <= p.quantity ==> r.quantity == p.quantity - o.quantity
    ensures o.quantity >= p.quantity ==> r.quantity == 0
    ensures r.(quantity := p.quantity) == p
  {
    p.(quantity := Stock.Withdraw(p.quantity, o.quantity))
  }

  /** A stock-in of n followed by a stock-out of n gives back the product
      as it was, whatever the reason recorded on the stock-out. */
  lemma StockInThenOutRestores(p: Product, n: int, price: int, notes: string, reason: OutReason)
    requires p.quantity >= 0
    ensures SaveStockOut(StockOut(n, reason), SaveStockEntry(StockEntry(n, price, notes), p)) == p
  {
    Stock.ReceiveThenWithdraw(p.quantity, n);
  }

  /** Stock movements only touch the unit count, so the boxed weight is
      unaffected by them. */
  lemma MovementsKeepWeight(p: Product, e: StockEntry, o: StockOut)
    ensures AvailableWeightKg(SaveStockEntry(e, p)) == AvailableWeightKg(p)
    ensures AvailableWeightKg(SaveStockOut(o, p)) == AvailableWeightKg(p)
  {
  }
}

/** The older copy of the inventory app: the same stock movements on a
    product record that has no weight fields. */
module ColdstoreInventory {
  import opened Wrappers
  import Stock

  datatype Product = Product(
    name: string,
    sku: Option<string>,
    unitPrice: int,        // hundredths
    wholesalePrice: int,   // hundredths
    quantity: int,
    minQuantityAlert: int)

  datatype OutReason = Sold | Disposed | Transfer

  datatype StockEntry = StockEntry(quantity: int, unitPrice: int, notes: string)

  datatype StockOut = StockOut(quantity: int, reason: OutReason)

  /** Saving a stock entry adds its quantity; name, prices and the alert
      threshold are left alone. */
  function SaveStockEntry(e: StockEntry, p: Product): (r: Product)
    ensures r.quantity == p.quantity + e.quantity
    ensures r.name == p.name && r.sku == p.sku
    ensures r.unitPrice == p.unitPrice && r.wholesalePrice == p.wholesalePrice
    ensures r.minQuantityAlert == p.minQuantityAlert
  {
    p.(quantity := Stock.Receive(p.quantity, e.quantity))
  }

  /** Saving a stock-out subtracts its quantity and clamps a negative
      result to zero; name, prices and the alert threshold are left alone. */
  function SaveStockOut(o: StockOut, p: Product): (r: Product)
    ensures r.quantity >= 0
    ensures o.quantity <= p.quantity ==> r.quantity == p.quantity - o.quantity
    ensures o.quantity >= p.quantity ==> r.quantity == 0
    ensures r.name == p.name && r.sku == p.sku
    ensures r.unitPrice == p.unitPrice && r.wholesalePrice == p.wholesalePrice
    ensures r.minQuantityAlert == p.minQuantityAlert
  {
    p.(quantity := Stock.Withdraw(p.quantity, o.quantity))
  }

  lemma StockInThenOutRestores(p: Product, n: int, price: int, notes: string, reason: OutReason)
    requires p.quantity >= 0
    ensures SaveStockOut(StockOut(n, reason), SaveStockEntry(StockEntry(n, price, notes), p)) == p
  {
    Stock.ReceiveThenWithdraw(p.quantity, n);
  }
}

=== FILE: ledger.dfy ===
/** Generic building blocks for the ORM queries the views run over a
    ledger: a queryset `filter` is `Filter`, `aggregate(Sum(...)) or 0.00` is
    `SumBy`, and the models' `ordering = ["-date", "-id"]` is
    `SortNewestFirst`. Everything here is independent of the kind of record. */
module Ledger {
  import opened Wrappers
  import opened Dates

  /** Sum of `f` over `s`; the empty sum is 0. */
  function SumBy<T>(s: seq<T>, f: T -> int): int
  {
    if |s| == 0 then 0 else f(s[0]) + SumBy(s[1..], f)
  }

  /** The elements of `s` that satisfy `p`, in their original order. */
  function Filter<T(!new)>(s: seq<T>, p: T -> bool): (r: seq<T>)
    ensures |r| <= |s|
    ensures forall x :: x in r <==> x in s && p(x)
  {
    if |s| == 0 then []
    else
      assert s == [s[0]] + s[1..];
      if p(s[0]) then [s[0]] + Filter(s[1..], p)
      else Filter(s[1..], p)
  }

  /** Filtering keeps every element satisfying `p` as often as it occurs
      and drops all others. */
  lemma {:induction false} FilterCount<T(!new)>(s: seq<T>, p: T -> bool)
    ensures forall x :: multiset(Filter(s, p))[x] == if p(x) then multiset(s)[x] else 0
  {
    if |s| > 0 {
      FilterCount(s[1..], p);
      assert s == [s[0]] + s[1..];
    }
  }

  /** Filtering respects sub-multisets (and so also permutations). */
  lemma FilterSubMultiset<T(!new)>(a: seq<T>, b: seq<T>, p: T -> bool)
    requires multiset(a) <= multiset(b)
    ensures multiset(Filter(a, p)) <= multiset(Filter(b, p))
    ensures multiset(a) == multiset(b) ==> multiset(Filter(a, p)) == multiset(Filter(b, p))
  {
    FilterCount(a, p);
    FilterCount(b, p);
    assert forall x :: multiset(Filter(a, p))[x] <= multiset(Filter(b, p))[x];
    if multiset(a) == multiset(b) {
      assert forall x :: multiset(Filter(a, p))[x] == multiset(Filter(b, p))[x];
    }
  }

  /** A filtered sequence is a sub-multiset of the original. */
  lemma FilterIsSubMultiset<T(!new)>(s: seq<T>, p: T -> bool)
    ensures multiset(Filter(s, p)) <= multiset(s)
  {
    FilterCount(s, p);
    assert forall x :: multiset(Filter(s, p))[x] <= multiset(s)[x];
  }

  /** `f` is never negative on the elements of `s`. */
  predicate NonNegativeOn<T>(s: seq<T>, f: T -> int) {
    forall i :: 0 <= i < |s| ==> f(s[i]) >= 0
  }

  lemma {:induction false} SumByAppend<T>(a: seq<T>, b: seq<T>, f: T -> int)
    ensures SumBy(a + b, f) == SumBy(a, f) + SumBy(b, f)
  {
    if |a| == 0 {
      assert a + b == b;
    } else {
      assert (a + b)[1..] == a[1..] + b;
      SumByAppend(a[1..], b, f);
    }
  }

  /** Taking one element out of a sum. */
  lemma SumByRemove<T>(s: seq<T>, j: int, f: T -> int)
    requires 0 <= j < |s|
    ensures SumBy(s, f) == f(s[j]) + SumBy(s[..j] + s[j + 1..], f)
  {
    assert s == s[..j] + ([s[j]] + s[j + 1..]);
    SumByAppend(s[..j], [s[j]] + s[j + 1..], f);
    SumByAppend(s[..j], s[j + 1..], f);
    assert ([s[j]] + s[j + 1..])[1..] == s[j + 1..];
  }

  lemma RemoveMultiset<T>(s: seq<T>, j: int)
    requires 0 <= j < |s|
    ensures multiset(s[..j] + s[j + 1..]) == multiset(s) - multiset{s[j]}
  {
    assert s == s[..j] + [s[j]] + s[j + 1..];
  }

  /** A sum does not depend on the order of its terms. */
  lemma {:induction false} SumByPermutation<T>(a: seq<T>, b: seq<T>, f: T -> int)
    requires multiset(a) == multiset(b)
    ensures SumBy(a, f) == SumBy(b, f)
    decreases |a|
  {
    if |a| == 0 {
      assert |b| == |multiset(b)| == 0;
    } else {
      assert a[0] in multiset(b);
      var j :| 0 <= j < |b| && b[j] == a[0];
      var rest := b[..j] + b[j + 1..];
      RemoveMultiset(b, j);
      assert a == [a[0]] + a[1..];
      assert multiset(a[1..]) == multiset(rest);
      SumByPermutation(a[1..], rest, f);
      SumByRemove(b, j, f);
    }
  }

  /** With non-negative terms, the sum over a sub-multiset is no larger. */
  lemma {:induction false} SumBySubMultiset<T>(a: seq<T>, b: seq<T>, f: T -> int)
    requires multiset(a) <= multiset(b)
    requires NonNegativeOn(b, f)
    ensures SumBy(a, f) <= SumBy(b, f)
    decreases |a|
  {
    if |a| == 0 {
      SumByNonNegative(b, f);
    } else {
      assert a[0] in multiset(b);
      var j :| 0 <= j < |b| && b[j] == a[0];
      var rest := b[..j] + b[j + 1..];
      RemoveMultiset(b, j);
      assert a == [a[0]] + a[1..];
      assert multiset(a[1..]) <= multiset(rest);
      forall i | 0 <= i < |rest|
        ensures f(rest[i]) >= 0
      {
        if i < j { assert rest[i] == b[i]; } else { assert rest[i] == b[i + 1]; }
      }
      SumBySubMultiset(a[1..], rest, f);
      SumByRemove(b, j, f);
    }
  }

  lemma {:induction false} SumByNonNegative<T>(s: seq<T>, f: T -> int)
    requires NonNegativeOn(s, f)
    ensures SumBy(s, f) >= 0
  {
    if |s| > 0 {
      assert NonNegativeOn(s[1..], f) by {
        forall i | 0 <= i < |s[1..]| ensures f(s[1..][i]) >= 0 {
          assert s[1..][i] == s[i + 1];
        }
      }
      SumByNonNegative(s[1..], f);
    }
  }

  /** Filtering distributes over concatenation. */
  lemma {:induction false} FilterAppend<T(!new)>(a: seq<T>, b: seq<T>, p: T -> bool)
    ensures Filter(a + b, p) == Filter(a, p) + Filter(b, p)
  {
    if |a| == 0 {
      assert a + b == b;
    } else {
      assert (a + b)[1..] == a[1..] + b;
      FilterAppend(a[1..], b, p);
    }
  }

  // ---------------------------------------------------------------------------
  // The default ordering of both ledgers: newest date first, then highest id.

  /** The date and id a ledger record is ordered by. */
  datatype Stamp = Stamp(date: Date, id: nat)

  /** `a` may be listed before `b` under `ordering = ["-date", "-id"]`. */
  predicate ListedBefore(a: Stamp, b: Stamp) {
    Before(b.date, a.date) || (a.date == b.date && a.id >= b.id)
  }

  lemma ListedBeforeTransitive(a: Stamp, b: Stamp, c: Stamp)
    requires ListedBefore(a, b) && ListedBefore(b, c)
    ensures ListedBefore(a, c)
  {
  }

  lemma ListedBeforeTotal(a: Stamp, b: Stamp)
    ensures ListedBefore(a, b) || ListedBefore(b, a)
  {
    BeforeTotal(a.date, b.date);
  }

  /** `s` is in the order the ledgers list their records in. */
  predicate NewestFirst<T>(s: seq<T>, stamp: T -> Stamp) {
    forall i, j :: 0 <= i < j < |s| ==> ListedBefore(stamp(s[i]), stamp(s[j]))
  }

  /** Stamp `a` may be listed before every record of `s`. */
  predicate ListedBeforeAll<T>(a: Stamp, s: seq<T>, stamp: T -> Stamp) {
    forall j :: 0 <= j < |s| ==> ListedBefore(a, stamp(s[j]))
  }

  /** A record listed before everything in a newest-first sequence may lead it. */
  lemma PrependNewestFirst<T>(x: T, s: seq<T>, stamp: T -> Stamp)
    requires NewestFirst(s, stamp)
    requires ListedBeforeAll(stamp(x), s, stamp)
    ensures NewestFirst([x] + s, stamp)
  {
    forall i, j | 0 <= i < j < |[x] + s|
      ensures ListedBefore(stamp(([x] + s)[i]), stamp(([x] + s)[j]))
    {
      assert ([x] + s)[j] == s[j - 1];
      if i > 0 {
        assert ([x] + s)[i] == s[i - 1];
      }
    }
  }

  /** The head of a newest-first sequence is listed before the rest of it. */
  lemma HeadBeforeRest<T>(s: seq<T>, stamp: T -> Stamp)
    requires |s| > 0 && NewestFirst(s, stamp)
    ensures NewestFirst(s[1..], stamp)
    ensures ListedBeforeAll(stamp(s[0]), s[1..], stamp)
  {
    forall j | 0 <= j < |s[1..]| ensures ListedBefore(stamp(s[0]), stamp(s[1..][j])) {
      assert s[1..][j] == s[j + 1];
    }
  }

  /** Listed before `x` and before every record of `s` is listed before
      every record of any rearrangement of `s` plus `x`. */
  lemma BeforeAllPermutation<T>(a: Stamp, s: seq<T>, x: T, t: seq<T>, stamp: T -> Stamp)
    requires ListedBeforeAll(a, s, stamp) && ListedBefore(a, stamp(x))
    requires multiset(t) == multiset(s) + multiset{x}
    ensures ListedBeforeAll(a, t, stamp)
  {
    forall j | 0 <= j < |t| ensures ListedBefore(a, stamp(t[j])) {
      assert t[j] in multiset(t);
      if t[j] != x {
        assert t[j] in multiset(s);
        var k :| 0 <= k < |s| && s[k] == t[j];
      }
    }
  }

  /** Inserts `x` into a newest-first sequence at its place. */
  function Insert<T>(x: T, s: seq<T>, stamp: T -> Stamp): (r: seq<T>)
    requires NewestFirst(s, stamp)
    ensures NewestFirst(r, stamp)
    ensures multiset(r) == multiset(s) + multiset{x}
  {
    if |s| == 0 then [x]
    else
      HeadBeforeRest(s, stamp);
      if ListedBefore(stamp(x), stamp(s[0])) then
        assert ListedBeforeAll(stamp(x), s, stamp) by {
          forall j | 0 < j < |s| ensures ListedBefore(stamp(x), stamp(s[j])) {
            assert s[1..][j - 1] == s[j];
            ListedBeforeTransitive(stamp(x), stamp(s[0]), stamp(s[j]));
          }
        }
        PrependNewestFirst(x, s, stamp);
        [x] + s
      else
        assert s == [s[0]] + s[1..];
        var tail := Insert(x, s[1..], stamp);
        ListedBeforeTotal(stamp(x), stamp(s[0]));
        BeforeAllPermutation(stamp(s[0]), s[1..], x, tail, stamp);
        PrependNewestFirst(s[0], tail, stamp);
        [s[0]] + tail
  }

  /** The records of `s` in newest-first order (an insertion sort). */
  function SortNewestFirst<T>(s: seq<T>, stamp: T -> Stamp): (r: seq<T>)
    ensures NewestFirst(r, stamp)
    ensures multiset(r) == multiset(s)
  {
    if |s| == 0 then []
    else
      assert s == [s[0]] + s[1..];
      Insert(s[0], SortNewestFirst(s[1..], stamp), stamp)
  }
  /** Sorting shows exactly the records it was given. */
  lemma SortKeepsMembers<T>(s: seq<T>, stamp: T -> Stamp)
    ensures forall x :: x in SortNewestFirst(s, stamp) <==> x in s
  {
    var r := SortNewestFirst(s, stamp);
    forall x ensures x in r <==> x in s {
      assert x in r <==> x in multiset(r);
      assert x in s <==> x in multiset(s);
    }
  }


  // ---------------------------------------------------------------------------
  // Looking records up and deleting them

  /** The HTTP verb of a request: only POST requests change a ledger. */
  datatype RequestMethod = Post | OtherMethod

  /** Position of the first record whose primary key `key` is `k`. */
  function IndexOf<T>(s: seq<T>, key: T -> nat, k: nat): (r: Option<nat>)
    ensures r.Some? ==> r.value < |s| && key(s[r.value]) == k
    ensures r.None? <==> forall i :: 0 <= i < |s| ==> key(s[i]) != k
  {
    if |s| == 0 then None
    else if key(s[0]) == k then Some(0)
    else match IndexOf(s[1..], key, k)
      case None =>
        assert forall i :: 1 <= i < |s| ==> s[i] == s[1..][i - 1];
        None
      case Some(j) => Some(j + 1)
  }

  /** `s` without its element at position `i`. */
  function RemoveAt<T>(s: seq<T>, i: nat): (r: seq<T>)
    requires i < |s|
    ensures |r| == |s| - 1
    ensures multiset(r) == multiset(s) - multiset{s[i]}
    ensures forall j :: 0 <= j < i ==> r[j] == s[j]
    ensures forall j :: i <= j < |r| ==> r[j] == s[j + 1]
  {
    RemoveMultiset(s, i);
    s[..i] + s[i + 1..]
  }

  /** Filtering commutes with removing one element: what is left of the
      filtered list is its part before and after the removed element. */
  lemma FilterRemoveAt<T(!new)>(s: seq<T>, i: nat, p: T -> bool)
    requires i < |s|
    ensures Filter(s, p) == Filter(s[..i], p) + Filter([s[i]], p) + Filter(s[i + 1..], p)
    ensures Filter(RemoveAt(s, i), p) == Filter(s[..i], p) + Filter(s[i + 1..], p)
  {
    SplitAt(s, i);
    FilterAroundOne(s[..i], s[i], s[i + 1..], p);
    FilterAppend(s[..i], s[i + 1..], p);
  }

  /** `s` is its part before `i`, its element at `i` and its part after. */
  lemma SplitAt<T>(s: seq<T>, i: nat)
    requires i < |s|
    ensures s == s[..i] + [s[i]] + s[i + 1..]
    ensures RemoveAt(s, i) == s[..i] + s[i + 1..]
  {
  }


  lemma FilterAroundOne<T(!new)>(a: seq<T>, x: T, b: seq<T>, p: T -> bool)
    ensures Filter(a + [x] + b, p) == Filter(a, p) + Filter([x], p) + Filter(b, p)
  {
    FilterAppend(a + [x], b, p);
    FilterAppend(a, [x], p);
  }



  /** The sum of a filtered list once `x` is appended: it gains the value
      of `x` exactly when `x` passes the filter. */
  lemma FilterSumAppendOne<T(!new)>(s: seq<T>, x: T, p: T -> bool, f: T -> int)
    ensures SumBy(Filter(s + [x], p), f) == SumBy(Filter(s, p), f) + (if p(x) then f(x) else 0)
  {
    FilterAppend(s, [x], p);
    SumByAppend(Filter(s, p), Filter([x], p), f);
    if p(x) {
      assert Filter([x], p) == [x];
    } else {
      assert Filter([x], p) == [];
    }
  }

  /** The sum of a filtered list once the element at position `i` is gone:
      it loses that element's value exactly when the element passed the
      filter. */
  lemma FilterSumRemoveAt<T(!new)>(s: seq<T>, i: nat, p: T -> bool, f: T -> int)
    requires i < |s|
    ensures SumBy(Filter(RemoveAt(s, i), p), f)
         == SumBy(Filter(s, p), f) - (if p(s[i]) then f(s[i]) else 0)
  {
    FilterRemoveAt(s, i, p);
    var fb, ft, fa := Filter(s[..i], p), Filter([s[i]], p), Filter(s[i + 1..], p);
    SumByAppend(fb + ft, fa, f);
    SumByAppend(fb, ft, f);
    SumByAppend(fb, fa, f);
    if p(s[i]) {
      assert ft == [s[i]];
    } else {
      assert ft == [];
    }
  }

  /** Primary keys are pairwise distinct. */
  predicate UniqueKeys<T>(s: seq<T>, key: T -> nat) {
    forall i, j :: 0 <= i < j < |s| ==> key(s[i]) != key(s[j])
  }

  /** With unique keys, removing the record found under `k` leaves no
      record with that key. */
  lemma RemoveFoundKey<T>(s: seq<T>, key: T -> nat, k: nat)
    requires UniqueKeys(s, key)
    requires IndexOf(s, key, k).Some?
    ensures forall j :: 0 <= j < |s| - 1 ==> key(RemoveAt(s, IndexOf(s, key, k).value)[j]) != k
  {
  }
}

=== FILE: roles.dfy ===
/** The landing page chosen for a user after login, from the superuser flag
    and the names of the user's groups. */
module Roles {

  const ReportsSummary: string := "reports_summary"
  const InventoryDashboard: string := "inventory_dashboard"

  datatype User = User(isSuperuser: bool, groups: set<string>)

  /** Superusers and accountants land on the reports summary, everyone else
      on the inventory dashboard. The Staff check leads to the same page as
      the fall-through. */
  function RedirectByRole(u: User): (r: string)
    ensures r == ReportsSummary || r == InventoryDashboard
    ensures r == ReportsSummary <==> u.isSuperuser || "Accountant" in u.groups
    ensures r == InventoryDashboard <==> !u.isSuperuser && "Accountant" !in u.groups
  {
    if u.isSuperuser then ReportsSummary
    else if "Accountant" in u.groups then ReportsSummary
    else if "Staff" in u.groups then InventoryDashboard
    else InventoryDashboard
  }

  /** The superuser flag takes precedence: group membership is not consulted. */
  lemma SuperuserPrecedence(groups: set<string>, other: set<string>)
    ensures RedirectByRole(User(true, groups)) == RedirectByRole(User(true, other)) == ReportsSummary
  {
  }

  /** Staff membership makes no difference to the outcome. */
  lemma StaffIrrelevant(u: User)
    ensures RedirectByRole(u.(groups := u.groups + {"Staff"})) == RedirectByRole(u.(groups := u.groups - {"Staff"}))
  {
  }

  /** Membership of the Admin group alone does not reach the reports: only
      the superuser flag does. */
  lemma AdminGroupAloneLandsOnInventory()
    ensures RedirectByRole(User(false, {"Admin"})) == InventoryDashboard
  {
  }
}

=== FILE: sales.dfy ===
/** The point-of-sale records: a sale is created empty and its items are
    saved one at a time; saving an item takes its quantity out of the
    product's stock (floored at zero) and recomputes the sale's total from
    all of its items. */
module Sales {
  import opened Wrappers
  import Ledger
  import Stock
  import Inventory

  datatype PaymentMethod = Cash | Momo | Card
  datatype SaleType = Retail | Wholesale

  /** Amounts are hundredths; `totalAmount` is the grand total. */
  datatype Sale = Sale(
    saleType: SaleType,
    customerName: Option<string>,
    customerPhone: Option<string>,
    paymentMethod: PaymentMethod,
    discount: int,
    subtotalAmount: int,
    vatAmount: int,
    totalAmount: int,
    note: string)

  /** A sale as first created: every amount at its default 0.00. */
  function NewSale(saleType: SaleType, paymentMethod: PaymentMethod): (s: Sale)
    ensures s.discount == 0 && s.subtotalAmount == 0 && s.vatAmount == 0 && s.totalAmount == 0
    ensures s.saleType == saleType && s.paymentMethod == paymentMethod
  {
    Sale(saleType, None, None, paymentMethod, 0, 0, 0, 0, "")
  }

  /** A line of a sale. The product reference becomes null when the product
      is deleted; quantity and price are missing only on an unsaved item. */
  datatype SaleItem = SaleItem(
    sale: nat,
    product: Option<nat>,
    quantity: Option<int>,
    unitPrice: Option<int>)

  /** Quantity times unit price, a missing quantity or price counting as 0. */
  function LineTotal(item: SaleItem): (t: int)
    ensures item.quantity.None? || item.unitPrice.None? ==> t == 0
    ensures item.quantity.Some? && item.unitPrice.Some?
            ==> t == item.quantity.value * item.unitPrice.value
  {
    item.quantity.GetOr(0) * item.unitPrice.GetOr(0)
  }

  /** The products, sales and sale items as stored, keyed by primary key. */
  datatype Shop = Shop(
    products: map<nat, Inventory.Product>,
    sales: map<nat, Sale>,
    items: seq<SaleItem>)

  /** The test of `sale.items`: the item belongs to sale `sid`. */
  function OfSale(sid: nat): SaleItem -> bool {
    (it: SaleItem) => it.sale == sid
  }

  /** The items of sale `sid`, in the order they were saved. */
  function ItemsOf(items: seq<SaleItem>, sid: nat): seq<SaleItem> {
    Ledger.Filter(items, OfSale(sid))
  }

  /** Sum of the line totals of sale `sid`. */
  function SaleTotal(items: seq<SaleItem>, sid: nat): int {
    Ledger.SumBy(ItemsOf(items, sid), LineTotal)
  }

  /** Why the database refuses to store an item: a NOT NULL column left
      empty, or a foreign key to a sale or product that does not exist. */
  datatype SaveError = MissingField | UnknownSale | UnknownProduct

  predicate Storable(shop: Shop, item: SaleItem) {
    && item.quantity.Some?
    && item.unitPrice.Some?
    && item.sale in shop.sales
    && (item.product.Some? ==> item.product.value in shop.products)
  }

  /** Saving a sale item. */
  function SaveItem(shop: Shop, item: SaleItem): (r: Result<Shop, SaveError>)
    ensures r.Success? <==> Storable(shop, item)
    ensures r.Success? ==> r.value.items == shop.items + [item]
    ensures r.Success? ==> r.value.sales.Keys == shop.sales.Keys
    ensures r.Success? ==> r.value.products.Keys == shop.products.Keys
    // the sale's total is recomputed over all of its items, the new one included
    ensures r.Success? ==>
      r.value.sales[item.sale].totalAmount == SaleTotal(shop.items + [item], item.sale)
    // and nothing else of the sale changes
    ensures r.Success? ==>
      r.value.sales[item.sale] == shop.sales[item.sale].(totalAmount := r.value.sales[item.sale].totalAmount)
    ensures r.Success? ==>
      forall sid :: sid in shop.sales && sid != item.sale ==> r.value.sales[sid] == shop.sales[sid]
    // the product's stock loses the item's quantity, floored at zero
    ensures r.Success? && item.product.Some? ==>
      var p := shop.products[item.product.value];
      var q := r.value.products[item.product.value].quantity;
      && r.value.products[item.product.value] == p.(quantity := q)
      && q >= 0
      && (item.quantity.value <= p.quantity ==> q == p.quantity - item.quantity.value)
      && (item.quantity.value >= p.quantity ==> q == 0)
    ensures r.Success? ==>
      forall pid :: pid in shop.products && item.product != Some(pid)
        ==> r.value.products[pid] == shop.products[pid]
  {
    if item.quantity.None? || item.unitPrice.None? then Failure(MissingField)
    else if item.sale !in shop.sales then Failure(UnknownSale)
    else if item.product.Some? && item.product.value !in shop.products then Failure(UnknownProduct)
    else
      var products :=
        if item.product.Some? then
          var p := shop.products[item.product.value];
          shop.products[item.product.value := p.(quantity := Stock.Withdraw(p.quantity, item.quantity.value))]
        else shop.products;
      var items := shop.items + [item];
      var sale := shop.sales[item.sale];
      Success(Shop(products, shop.sales[item.sale := sale.(totalAmount := SaleTotal(items, item.sale))], items))
  }

  /** Saving an item already stored at index `i` with the values `item`,
      as the admin's change form does: the row is replaced in place, the
      product loses the item's whole quantity again (floored at zero), and
      the total of the item's sale is recomputed over its items. A sale the
      item was moved away from keeps its old total. */
  function ResaveItem(shop: Shop, i: nat, item: SaleItem): (r: Result<Shop, SaveError>)
    requires i < |shop.items|
    ensures r.Success? <==> Storable(shop, item)
    ensures r.Success? ==> r.value.items == shop.items[i := item]
    ensures r.Success? ==> r.value.sales.Keys == shop.sales.Keys
    ensures r.Success? ==> r.value.products.Keys == shop.products.Keys
    ensures r.Success? ==>
      r.value.sales[item.sale] == shop.sales[item.sale].(totalAmount := SaleTotal(shop.items[i := item], item.sale))
    ensures r.Success? ==>
      forall sid :: sid in shop.sales && sid != item.sale ==> r.value.sales[sid] == shop.sales[sid]
    ensures r.Success? && item.product.Some? ==>
      var p := shop.products[item.product.value];
      r.value.products[item.product.value] == p.(quantity := Stock.Withdraw(p.quantity, item.quantity.value))
    ensures r.Success? ==>
      forall pid :: pid in shop.products && item.product != Some(pid)
        ==> r.value.products[pid] == shop.products[pid]
  {
    if item.quantity.None? || item.unitPrice.None? then Failure(MissingField)
    else if item.sale !in shop.sales then Failure(UnknownSale)
    else if item.product.Some? && item.product.value !in shop.products then Failure(UnknownProduct)
    else
      var products :=
        if item.product.Some? then
          var p := shop.products[item.product.value];
          shop.products[item.product.value := p.(quantity := Stock.Withdraw(p.quantity, item.quantity.value))]
        else shop.products;
      var items := shop.items[i := item];
      var sale := shop.sales[item.sale];
      Success(Shop(products, shop.sales[item.sale := sale.(totalAmount := SaleTotal(items, item.sale))], items))
  }

  /** Saving an item and then saving it again unchanged takes its quantity
      out of the product's stock twice, while the items and the sale total
      stay as after the first save. */
  lemma ResaveWithdrawsAgain(shop: Shop, item: SaleItem)
    requires Storable(shop, item) && item.product.Some?
    requires item.quantity.value >= 0
    ensures
      var once := SaveItem(shop, item).value;
      var twice := ResaveItem(once, |shop.items|, item);
      var pid := item.product.value;
      && twice.Success?
      && twice.value.items == once.items
      && twice.value.sales == once.sales
      && twice.value.products[pid].quantity
           == Stock.Withdraw(shop.products[pid].quantity, 2 * item.quantity.value)
  {
    var once := SaveItem(shop, item).value;
    var pid := item.product.value;
    assert once.items[|shop.items| := item] == once.items;
    Stock.WithdrawTwice(shop.products[pid].quantity, item.quantity.value, item.quantity.value);
  }

  /** Every stored sale total agrees with its items. */
  predicate TotalsAgree(shop: Shop) {
    forall sid :: sid in shop.sales ==> shop.sales[sid].totalAmount == SaleTotal(shop.items, sid)
  }

  /** Appending an item changes the total of its own sale by its line total
      and leaves every other sale's total alone. */
  lemma {:induction false} SaleTotalAppend(items: seq<SaleItem>, item: SaleItem, sid: nat)
    ensures SaleTotal(items + [item], sid)
         == SaleTotal(items, sid) + (if item.sale == sid then LineTotal(item) else 0)
  {
    Ledger.FilterAppend(items, [item], OfSale(sid));
    Ledger.SumByAppend(ItemsOf(items, sid), ItemsOf([item], sid), LineTotal);
    if item.sale == sid {
      assert ItemsOf([item], sid) == [item];
    } else {
      assert ItemsOf([item], sid) == [];
    }
  }

  /** The recomputation is the same as keeping a running total: the new
      total is the old (consistent) total plus the new line. */
  lemma SaveItemRunningTotal(shop: Shop, item: SaleItem)
    requires Storable(shop, item)
    requires shop.sales[item.sale].totalAmount == SaleTotal(shop.items, item.sale)
    ensures SaveItem(shop, item).value.sales[item.sale].totalAmount
         == shop.sales[item.sale].totalAmount + LineTotal(item)
  {
    SaleTotalAppend(shop.items, item, item.sale);
  }

  /** Saving an item keeps every sale total consistent with its items. */
  lemma SaveItemKeepsTotalsAgreeing(shop: Shop, item: SaleItem)
    requires TotalsAgree(shop)
    requires Storable(shop, item)
    ensures TotalsAgree(SaveItem(shop, item).value)
  {
    var r := SaveItem(shop, item).value;
    forall sid | sid in r.sales
      ensures r.sales[sid].totalAmount == SaleTotal(r.items, sid)
    {
      SaleTotalAppend(shop.items, item, sid);
    }
  }

  /** No saved item can make any stock negative. */
  predicate StockNonNegative(shop: Shop) {
    forall pid :: pid in shop.products ==> shop.products[pid].quantity >= 0
  }

  lemma SaveItemKeepsStockNonNegative(shop: Shop, item: SaleItem)
    requires StockNonNegative(shop)
    requires Storable(shop, item)
    ensures StockNonNegative(SaveItem(shop, item).value)
  {
  }

  /** An item whose product was deleted changes no stock at all. */
  lemma OrphanItemKeepsStock(shop: Shop, item: SaleItem)
    requires Storable(shop, item)
    requires item.product.None?
    ensures SaveItem(shop, item).value.products == shop.products
  {
  }

  /** Two items, 2 at 10.00 and 1 at 5.00, saved into an empty sale: the
      total is 25.00 and each product loses what was sold. */
  lemma TwoItemSale(shop: Shop, sid: nat, a: nat, b: nat)
    requires sid in shop.sales && shop.sales[sid].totalAmount == 0
    requires ItemsOf(shop.items, sid) == []
    requires a != b && a in shop.products && b in shop.products
    requires shop.products[a].quantity >= 2 && shop.products[b].quantity >= 1
    ensures
      var s1 := SaveItem(shop, SaleItem(sid, Some(a), Some(2), Some(1000)));
      && s1.Success?
      && var s2 := SaveItem(s1.value, SaleItem(sid, Some(b), Some(1), Some(500)));
      && s2.Success?
      && s2.value.sales[sid].totalAmount == 2500
      && s2.value.products[a].quantity == shop.products[a].quantity - 2
      && s2.value.products[b].quantity == shop.products[b].quantity - 1
  {
    var i1 := SaleItem(sid, Some(a), Some(2), Some(1000));
    var i2 := SaleItem(sid, Some(b), Some(1), Some(500));
    var s1 := SaveItem(shop, i1).value;
    SaleTotalAppend(shop.items, i1, sid);
    SaleTotalAppend(s1.items, i2, sid);
    assert SaleTotal(shop.items, sid) == 0;
  }
}

/** The sale-item form's cross-field check: the requested quantity must be
    in stock. */
module SaleForms {
  import opened Wrappers
  import Inventory
  import Sales

  /** The form's cleaned data. */
  datatype ItemData = ItemData(
    product: Option<Inventory.Product>,
    quantity: Option<int>,
    unitPrice: Option<int>)

  /** "Not enough stock! Available: N", carrying N. */
  datatype ValidationError = NotEnoughStock(available: int)

  /** Rejects a quantity above the product's stock. A missing product or a
      missing or zero quantity skips the check. */
  function CleanSaleItem(d: ItemData): (r: Result<ItemData, ValidationError>)
    ensures r.Failure? <==>
      d.product.Some? && d.quantity.Some? && d.quantity.value != 0
      && d.quantity.value > d.product.value.quantity
    ensures r.Failure? ==> r.error.available == d.product.value.quantity
    ensures r.Success? ==> r.value == d
  {
    if d.product.Some? && d.quantity.Some? && d.quantity.value != 0
       && d.quantity.value > d.product.value.quantity
    then Failure(NotEnoughStock(d.product.value.quantity))
    else Success(d)
  }

  /** An item with a non-zero quantity that passed the stock check and is
      saved against the same product never hits the zero floor: the stock
      changes by exactly the quantity sold (a negative quantity raises it). */
  lemma ValidatedItemNeverClamps(shop: Sales.Shop, sid: nat, pid: nat, n: int, price: int)
    requires sid in shop.sales && pid in shop.products
    requires n != 0
    requires CleanSaleItem(ItemData(Some(shop.products[pid]), Some(n), Some(price))).Success?
    ensures
      var r := Sales.SaveItem(shop, Sales.SaleItem(sid, Some(pid), Some(n), Some(price)));
      r.Success? && r.value.products[pid].quantity == shop.products[pid].quantity - n
  {
  }
}

=== FILE: validators.dfy ===
/** The field cleaners of the bank-account, bank-transaction, vehicle and
    vehicle-transaction forms. Amounts are hundredths; `None` is a field
    left empty. A form's errors map each refused field's name to the reason
    it was refused, as a form's `errors` does. */
module Validators {
  import opened Wrappers
  import opened Dates

  /** Why a form field is refused. */
  datatype FieldError =
    | Required     // "This field is required."
    | TooLong      // longer than the model field's `max_length`
    | Invalid      // not a calendar date, or text holding a null character
    | NotPositive  // "Amount must be greater than 0."
    | Taken        // a unique field whose value is already in use

  /** A transaction amount must be present and strictly positive; an
      accepted amount is passed on unchanged. */
  function CleanAmount(amt: Option<int>): (r: Result<int, FieldError>)
    ensures r.Success? <==> amt.Some? && amt.value > 0
    ensures r.Success? ==> r.value == amt.value
    ensures r.Failure? ==> r.error == NotPositive
  {
    match amt
    case None => Failure(NotPositive)
    case Some(a) => if a <= 0 then Failure(NotPositive) else Success(a)
  }

  /** The amount field as a form runs it: the model field has no `blank`,
      so an empty amount is refused as required before `CleanAmount` runs. */
  function CleanAmountField(amt: Option<int>): (r: Result<int, FieldError>)
    ensures r.Success? <==> amt.Some? && amt.value > 0
    ensures r.Success? ==> r.value == amt.value
    ensures r.Failure? ==> (r.error == Required <==> amt.None?)
    ensures r.Failure? ==> r.error == Required || r.error == NotPositive
  {
    if amt.None? then Failure(Required) else CleanAmount(amt)
  }

  /** The required check only changes the reason, never the verdict. */
  lemma AmountFieldAgreesWithCleaner(amt: Option<int>)
    ensures CleanAmountField(amt).Success? <==> CleanAmount(amt).Success?
    ensures CleanAmountField(amt).Success? ==> CleanAmountField(amt) == CleanAmount(amt)
  {
  }

  /** A missing opening balance becomes 0.00; any value present, negative
      ones included, is kept. */
  function CleanOpeningBalance(bal: Option<int>): (r: int)
    ensures bal.None? ==> r == 0
    ensures bal.Some? ==> r == bal.value
  {
    bal.GetOr(0)
  }

  /** The opening-balance field as a form runs it: the model field has a
      default but no `blank`, so an empty value is refused as required
      before `CleanOpeningBalance` runs, and the cleaner's 0.00 default is
      never reached through the form. */
  function CleanOpeningBalanceField(bal: Option<int>): (r: Result<int, FieldError>)
    ensures r.Success? <==> bal.Some?
    ensures r.Success? ==> r.value == bal.value
    ensures r.Failure? ==> r.error == Required
  {
    if bal.None? then Failure(Required) else Success(CleanOpeningBalance(bal))
  }

  /** Whatever the field accepts passes through the cleaner unchanged: the
      cleaner's default plays no part in what the form stores. */
  lemma OpeningBalanceDefaultUnreachable(bal: Option<int>)
    ensures CleanOpeningBalanceField(bal).Success? ==>
      CleanOpeningBalanceField(bal).value == CleanOpeningBalance(bal) == bal.value
  {
  }

  /** Cleaning a cleaned opening balance changes nothing. */
  lemma CleanOpeningBalanceIdempotent(bal: Option<int>)
    ensures CleanOpeningBalance(Some(CleanOpeningBalance(bal))) == CleanOpeningBalance(bal)
  {
  }

  /** Whatever a form accepts, it accepts again unchanged: cleaning is
      idempotent on amounts. */
  lemma CleanAmountIdempotent(amt: Option<int>)
    requires CleanAmount(amt).Success?
    ensures CleanAmount(Some(CleanAmount(amt).value)) == CleanAmount(amt)
  {
  }

  /** A character field of at most `maxLength` characters; a field whose
      model allows `blank` may be left empty, any other is required. A form
      character field also refuses any value holding a null character. An
      accepted value is passed on unchanged. */
  function CleanText(s: string, blank: bool, maxLength: nat): (r: Result<string, FieldError>)
    ensures r.Success? <==> (blank || |s| > 0) && |s| <= maxLength && '\0' !in s
    ensures r.Success? ==> r.value == s
    ensures r.Failure? ==> (r.error == Required <==> |s| == 0)
    ensures r.Failure? ==> (r.error == TooLong <==> |s| > maxLength)
    ensures r.Failure? ==> (r.error == Invalid <==> 0 < |s| <= maxLength && '\0' in s)
  {
    if |s| == 0 then (if blank then Success(s) else Failure(Required))
    else if |s| > maxLength then Failure(TooLong)
    else if '\0' in s then Failure(Invalid)
    else Success(s)
  }

  /** A free-text field with no length limit that may be left empty: the
      only value refused is one holding a null character. */
  function CleanFreeText(s: string): (r: Result<string, FieldError>)
    ensures r.Success? <==> '\0' !in s
    ensures r.Success? ==> r.value == s
    ensures r.Failure? ==> r.error == Invalid
  {
    if '\0' in s then Failure(Invalid) else Success(s)
  }

  /** A free-text field behaves as a blank-allowed character field whose
      length limit is never reached. */
  lemma FreeTextIsUnboundedText(s: string)
    ensures CleanFreeText(s) == CleanText(s, true, |s|)
  {
  }

  /** A required date field: `None` is a field left empty, and a value that
      is not a calendar date is refused. */
  function CleanDate(d: Option<Date>): (r: Result<Date, FieldError>)
    ensures r.Success? <==> d.Some? && ValidDate(d.value)
    ensures r.Success? ==> r.value == d.value
    ensures r.Failure? ==> (r.error == Required <==> d.None?)
    ensures r.Failure? ==> r.error == Required || r.error == Invalid
  {
    match d
    case None => Failure(Required)
    case Some(x) => if ValidDate(x) then Success(x) else Failure(Invalid)
  }

  /** Cleaning an accepted text or date again accepts it unchanged. */
  lemma CleanTextAndDateIdempotent(s: string, blank: bool, maxLength: nat, d: Option<Date>)
    ensures CleanText(s, blank, maxLength).Success? ==>
      CleanText(CleanText(s, blank, maxLength).value, blank, maxLength) == CleanText(s, blank, maxLength)
    ensures CleanDate(d).Success? ==> CleanDate(Some(CleanDate(d).value)) == CleanDate(d)
  {
  }

  /** Records the outcome of one field in a form's error map: a refused
      field is entered with its reason, an accepted one leaves the map as
      it was. */
  function NoteField<T>(errs: map<string, FieldError>, field: string, r: Result<T, FieldError>)
    : (e: map<string, FieldError>)
    ensures e.Keys == if r.Failure? then errs.Keys + {field} else errs.Keys
    ensures r.Failure? ==> e[field] == r.error
    ensures forall k :: k in errs && k != field ==> e[k] == errs[k]
  {
    if r.Failure? then errs[field := r.error] else errs
  }
}

=== FILE: wrappers.dfy ===
/** Failure-carrying values shared by every module of the model: an optional
    value for nullable fields and an outcome for operations that can be refused. */
module Wrappers {

  /** A nullable value: `None` stands for a missing form field or a NULL column. */
  datatype Option<+T> = None | Some(value: T) {

    /** The value, or `default` when it is missing (Python's `x or default`
        for values whose only falsy case is `None`). */
    function GetOr(default: T): T {
      match this
      case Some(v) => v
      case None => default
    }
  }

  /** Either the new value or the reason the operation was refused. */
  datatype Result<+R, +E> = Success(value: R) | Failure(error: E)
}
